=== FILE: README.md ===
# Bibbox FBS circulation core in Dafny

This project models the part of the Bibbox self-service kiosk that talks to
FBS, the library's circulation backend, over SIP2 request lines. It also
models the browser-side session that drives a patron login. It covers:

- **Request lines** (`plugins/fbs/request.js`): `zeroPad` and `encodeTime`
  build the 18-character SIP2 date `YYYYMMDD    HHMMSS`. The seven builders
  (`libraryStatus`, `patronStatus`, `patronInformation`, `checkout`,
  `checkIn`, `renew`, `renewAll`) concatenate a command code, timestamps
  and pipe-delimited two-letter fields.
- **Sending** (`plugins/fbs/request.js`): `send` decides what the caller's
  `(err, res)` callback gets. The outcome is an offline error, a transport
  or HTTP error, or a parsed reply that may carry a remote error.
- **Login** (`plugins/fbs/fbs.js`): `FBS.prototype.login` and the
  `fbs.login` bus handler.
- **Client session** (`public/js/services/userService.js`): the
  `username`/`password`/`loggedIn` state machine and the request it puts on
  the bus for `login`, `borrow` and `patron`.
- **Login screen** (`public_tests/controllers/loginController.spec.js`):
  the controller's source is not part of this model, so the unit tests are
  the contract.

Modules, one per file, follow the program's structure:

| file | module | contents |
|---|---|---|
| `wrappers.dfy` | `Wrappers` | `Option`, `Error`, settle-once promises (`Q.defer`, `$q.defer`) |
| `decimal.dfy` | `Decimal` | decimal text of naturals below 10^21 (JavaScript's `'' + n`) and its inverse |
| `sip2_time.dfy` | `Sip2Time` | `zeroPad`, `encodeTime`, and a reader for the date field |
| `sip2_frame.dfy` | `Sip2Frame` | header + pipe-delimited fields, with a reader that inverts it |
| `sip2_request.dfy` | `Sip2Request` | the seven builders, their field tables, `send` |
| `bus.dfy` | `Bus` | bus requests, emissions, one-shot success/error listeners |
| `fbs.dfy` | `Fbs` | `login` and the `fbs.login` handler |
| `user_service.dfy` | `UserService` | the client session |
| `login_controller.dfy` | `LoginController` | the login screen |
| `login_flow.dfy` | `LoginFlow` | client and plugin composed over the bus |

Some things are parameters instead of being modelled:

- The clock is a `Date` record with the month in 1..12, i.e.
  `getMonth() + 1`.
- The MD5 unique ids are strings.
- The online probe's answer is a boolean.
- The HTTP transport's result is an `HttpReply` value.
- The reply parser, `response.js`, is an uninterpreted function `parse`
  from body and first field to a `Response` record. `response.js` is not
  part of this model.

Each builder is stated against a field table, for example
`PatronStatusMessage`. `Sip2Frame.Decode` reads a line back into that
table, so field order, empty placeholders and the nine `Y`s are fixed by a
round trip rather than by restating the concatenation.

Two behaviours a reader might expect are absent from the code:

- `FBS.prototype.login` (plugins/fbs/fbs.js:41-54) has no offline
  fallback. An offline login rejects, and, with `send` and `login`
  corrected (see Findings), the handler answers `false` (`Fbs.Login`, `Fbs.LoginAnswer`).
- No file in this core counts failed logins or blocks repeated attempts.

## Model

| member | source | states |
|---|---|---|
| Wrappers.SettledIsFinal | plugins/fbs/fbs.js:42-51 | once a deferred is settled, any further resolve or reject leaves it as it is |
| Wrappers.FirstCallWins | plugins/fbs/fbs.js:46-50 | a deferred given a sequence of settle calls ends as the first of them says |
| Decimal.DecimalRoundTrip | plugins/fbs/request.js:69 | the decimal text JavaScript gives a natural below 10^21 (every year a JavaScript Date holds) reads back as that natural, and a canonical digit string is the text of the number it denotes |
| Decimal.FourDigits | plugins/fbs/request.js:69 | the year's text has four characters exactly when the year is 1000..9999 |
| Sip2Time.ZeroPad | plugins/fbs/request.js:50-52 | the result is always two characters: the tens digit and the units digit of n |
| Sip2Time.ZeroPadCases | plugins/fbs/request.js:50-52 | a one-digit n gets a leading '0', 10..99 is its own text, and larger n keep only their last two digits |
| Sip2Time.EncodeTime | plugins/fbs/request.js:63-70 | the date field is the year's text plus 14 characters; with a four-digit year it is 18 characters with four spaces at positions 8..11 |
| Sip2Time.TimeHasNoPipe | plugins/fbs/request.js:69 | the date field never contains the field delimiter, so it cannot split a request line |
| Sip2Time.TimeRoundTrip | plugins/fbs/request.js:63-70 | a valid date with a four-digit year is recovered exactly from its date field: year, month, day, hour, minute, second |
| Sip2Time.TimeDecodeCanonical | plugins/fbs/request.js:63-70 | every string the date reader accepts is exactly the date field of the date it reads |
| Sip2Frame.FrameRoundTrip | plugins/fbs/request.js:192 | a pipe-free header followed by pipe-free fields of two-letter codes, each introduced by the delimiter, with a closing delimiter, reads back as that header and those fields in order |
| Sip2Frame.FrameDecodeExact | plugins/fbs/request.js:192 | any line the reader accepts is exactly the encoding of the message it reads |
| Sip2Frame.Split | plugins/fbs/request.js:192 | splitting on the delimiter gives at least one token and no token contains the delimiter |
| Sip2Request.EmptyArrayJoin | plugins/fbs/request.js:210 | joining n empty elements gives n - 1 copies of the separator (nothing for n = 0) and nothing else |
| Sip2Request.EmptyArrayJoinRepeats | plugins/fbs/request.js:210 | the joined text is the separator repeated: character i is character i mod the separator's length |
| Sip2Request.PatronStatus | plugins/fbs/request.js:189-195 | the patron-status line is header 23009 + timestamp with fields AO agency, AA patron, AC empty, AD password |
| Sip2Request.PatronInformation | plugins/fbs/request.js:207-213 | the patron-information line is header 63009 + timestamp + nine Y's with fields AO, AA, AC empty, AD |
| Sip2Request.Checkout | plugins/fbs/request.js:227-233 | the checkout line is header 11NN + the timestamp twice with fields AO, AA, AB item, AC empty, CH empty, AD |
| Sip2Request.CheckIn | plugins/fbs/request.js:243-249 | the check-in line is header 09N + the timestamp twice with fields AP location, AO agency, AB item, AC empty, CH empty and no patron fields |
| Sip2Request.Renew | plugins/fbs/request.js:263-269 | the renew line is header 29NN + the timestamp twice with fields AO, AA, AD password, then AB item |
| Sip2Request.RenewAll | plugins/fbs/request.js:281-287 | the renew-all line is header 65 + one timestamp with fields AO, AA, AD |
| Sip2Request.RequestsReadBack | plugins/fbs/request.js:189-287 | when no argument or configured code contains the delimiter, each of the six field-carrying lines reads back field by field, in order, as its table |
| Sip2Request.LibraryStatusLine | plugins/fbs/request.js:174-177 | the status line is the fixed ten-character request 99, 0, xxx, 2.00, with no fields and no delimiter |
| Sip2Request.Submit | plugins/fbs/request.js:174-287 | every operation posts its own line to the endpoint when online and has the reply parsed from field AO |
| Sip2Request.Send | plugins/fbs/request.js:101-166 | the online probe always goes to the endpoint on fbs.sip2.online; the line is posted only when online; offline gives ('FBS is offline', null); a transport error e gives (e, null); any other status calls back with the parsed reply's error, or 'Unknown error' when it reports none, and no response; a response exists exactly for a status-200 reply, and its error is non-null exactly when the parsed reply reports one |
| Sip2Request.SendAsWritten | plugins/fbs/request.js:127-135 | as written, an exception escapes instead of the callback exactly for a non-200 reply whose parse reports no error; otherwise it behaves as Send |
| Sip2Request.StatusCodeCallThrows | plugins/fbs/request.js:134 | a 500 reply with an error-free body throws as written, where the intended code calls back with 'Unknown error' |
| Bus.Listen | public/js/services/userService.js:45-57 | a caller's one-shot listeners hear nothing exactly when nothing was emitted on either of their channels, and otherwise the first such emission, on the channel it came on |
| Bus.ListenSkips | public/js/services/userService.js:45-57 | emissions on other channels before the answer do not change what a caller hears |
| Bus.ListenKeeps | public/js/services/userService.js:45-57 | emissions after the answer do not change what a caller heard |
| Fbs.Login | plugins/fbs/fbs.js:41-54 | login posts the patron-status line with the credentials unchanged; it never throws and always settles; true exactly when the reply arrived with status 200, reports no error and both validity fields are "Y"; false exactly when such a reply fails the check; rejected exactly on offline, transport, HTTP or remote error, with the error send passed to the callback |
| Fbs.LoginOutcomeUnaffected | plugins/fbs/fbs.js:46-50 | the missing return after reject does not change how the promise settles, because it settles once |
| Fbs.LoginAsWrittenThrows | plugins/fbs/fbs.js:46-50 | as written, the callback throws exactly when the request failed without a response; offline it is the null dereference |
| Fbs.HandleLogin | plugins/fbs/fbs.js:66-74 | the handler emits only on the caller's channel and fbs.err; it emits nothing while login is pending; its last emission is the caller's channel with true exactly for a login resolved true; a resolved login emits exactly its value on the caller's channel; a failure emits two events, the first fbs.err with the error |
| Fbs.ServeLoginAsWritten | plugins/fbs/request.js:127-135 | with send as written, a request on which send throws gets no emission at all; any other request is answered as with send and login corrected, assuming the exception login's callback throws is caught |
| Fbs.LoginAnswer | plugins/fbs/fbs.js:41-74 | with send and login corrected, a served login is answered exactly once on the caller's channel, with whether FBS accepted the credentials; everything before that answer is on fbs.err, and fbs.err appears exactly when the request failed |
| UserService.Login | public/js/services/userService.js:37-60 | login stores user and password whatever the outcome; loggedIn becomes the resolved value and is unchanged on rejection; the promise settles like the reply; the request's success channel is fbs.login.success + id and equals its busEvent |
| UserService.LoginReply | public/js/services/userService.js:49-57 | a login reply arriving sets loggedIn to the resolved value whatever the session holds by then, leaves it on rejection, and never touches the credentials |
| UserService.LoginIsCallThenReply | public/js/services/userService.js:37-57 | the call alone changes only the credentials, and a login answered at once is the call followed by its reply |
| UserService.Logout | public/js/services/userService.js:67-71 | logout restores the initial, logged-out state |
| UserService.Borrow | public/js/services/userService.js:78-98 | borrow sends fbs.checkout with the stored credentials and the item, answers on fbs.checkout.success + id (equal to its busEvent) or fbs.error, and leaves the session unchanged |
| UserService.Patron | public/js/services/userService.js:107-126 | patron sends fbs.patron with the stored credentials, answers on fbs.patron.success + id (equal to its busEvent) or fbs.patron.error, and leaves the session unchanged |
| UserService.ChannelsUnique | public/js/services/userService.js:43-48 | requests of one kind with different unique ids answer on different channels |
| UserService.RunCorrelated | public/js/services/userService.js:45-48 | in any sequence of service calls, every request's success channel is the busEvent it carries |
| UserService.RunPaired | public/js/services/userService.js:37-71 | in any order of calls and replies, user and password are set or unset together |
| UserService.RunConsistent | public/js/services/userService.js:13-71 | when every login reply arrives right after its login, every sequence of calls and replies from a consistent state never has loggedIn without credentials |
| UserService.LoggedInIsLastVerdict | public/js/services/userService.js:22-71 | userLoggedIn reports the latest logout (false) or the latest resolved login reply to arrive (its value), whichever login it answers; calls, rejections and other requests never change it |
| UserService.LateReplyAfterLogout | public/js/services/userService.js:49-53 | a login whose acceptance arrives after a logout leaves loggedIn true with no credentials |
| UserService.StaleReplyLogsInWrongPatron | public/js/services/userService.js:49-53 | with two logins in flight, the first patron's late acceptance logs in the second patron, whom FBS refused |
| UserService.PerformGuarded | public/js/services/userService.js:37-71 | with the guard, a reply to any login but the latest one since the last logout changes nothing; calls act as in the service |
| UserService.GuardedConsistent | public/js/services/userService.js:13-57 | with the guard, no order of calls and replies ever has loggedIn without credentials |
| UserService.GuardedAgreesWhenPrompt | public/js/services/userService.js:37-71 | when replies arrive right after their logins, the guarded session is exactly the service's session |
| UserService.GuardedIgnoresStaleReplies | public/js/services/userService.js:49-53 | on the two traces above the guarded session stays logged out |
| UserService.LogoutIdempotent | public/js/services/userService.js:67-71 | logging out twice is logging out once, and the initial state is consistent and logged out |
| LoginController.UseManualLogin | public_tests/controllers/loginController.spec.js:60-78 | true shows the username view, false the default view; either way the username is cleared and nothing else changes |
| LoginController.BarcodeResult | public_tests/controllers/loginController.spec.js:133-145 | a resolved scan becomes the username; an unresolved one changes nothing |
| LoginController.UsernameEntered | public_tests/controllers/loginController.spec.js:80-106 | the error flag is set exactly when the username is not ten digits; the view moves to the password view exactly when it is |
| LoginController.PasswordEntered | public_tests/controllers/loginController.spec.js:109-131 | the error flag is set exactly when the password is empty or not all digits; the view stays |
| LoginController.PasswordNeedsValidUsername | public_tests/controllers/loginController.spec.js:80-106 | from any other view, the password view is reached only after a username was submitted while it was ten digits |
| LoginController.BackToBarcode | public_tests/controllers/loginController.spec.js:70-77 | from any state, useManualLogin(false) returns to the default view with the username cleared |
| LoginController.InitialScope | public_tests/controllers/loginController.spec.js:54-58 | the scope starts in the default view with string username and password |
| LoginController.ManualLoginClearsUsername | public_tests/controllers/loginController.spec.js:60-78 | the test's toggle sequence ends in the username view and then the default view, both with an empty username |
| LoginController.RejectsShortOrNonDigitUsername | public_tests/controllers/loginController.spec.js:80-97 | '123', 'abcdefghij' and '' are rejected and the view stays on the username view |
| LoginController.AcceptsTenDigitUsername | public_tests/controllers/loginController.spec.js:99-106 | '1234567890' is accepted and the view moves to the password view |
| LoginController.OnlyNonEmptyDigitPassword | public_tests/controllers/loginController.spec.js:109-131 | '' and 'abc' are rejected on the password view, and '1' is accepted |
| LoginController.AcceptsBarcode | public_tests/controllers/loginController.spec.js:133-145 | a scan resolving to '1234' after useManualLogin(false) becomes the username |
| LoginFlow.LoginEndToEnd | public/js/services/userService.js:37-60 | with send and login corrected, a client login served by the plugin is heard on its success channel; the client ends logged in exactly when FBS accepted the credentials, and keeps them stored |
| LoginFlow.ConcurrentLoginsIsolated | public/js/services/userService.js:43-48 | two logins in flight with different ids each hear only their own answer, whichever order the plugin's emissions arrive in |
| LoginFlow.LoginHangsAsWritten | plugins/fbs/request.js:127-135 | as written, a login whose reply is not status 200 and reports no error is never answered: send throws, the plugin emits nothing, the caller hears nothing, its promise stays pending and loggedIn is unchanged |
| LoginFlow.AnsweredAsWritten | plugins/fbs/request.js:127-135 | on every other reply, the plugin with send as written emits exactly what the corrected plugin emits |
| LoginFlow.LoginChannels | plugins/fbs/fbs.js:70-72 | a login's success channel is neither fbs.err nor its error channel fbs.login.error |

## Left out

- The XML envelope (`buildXML` and its handlebars template) and the HTTP
  options and headers (plugins/fbs/request.js:81-88, 106-120). The posted
  message is the bare SIP2 line; the envelope is a foreign rendering.
- `response.js` is not part of this model. `parse` is an uninterpreted
  function, and its results are the fields `hasError`, `error`,
  `validPatron` and `validPatronPassword`.
- Debug and error logging on the bus (`logger.debug`, `logger.error`), and
  the `debug` call at request.js:143. They do not affect the outcome.
- The Request constructor's configuration loading over the bus
  (plugins/fbs/request.js:1-37). The configuration is a `Config` value.
- The `if (!timestamp)` fallback to the current time in `encodeTime`
  (plugins/fbs/request.js:64-66) and JavaScript's `Date` conversion. The
  caller supplies the date record.
- `CryptoJS.MD5` unique ids and `Date.now()`. Ids are parameters.
- Event-emitter asynchrony and the proxy service. `bus.once` and the
  listeners are the `Listen` function over a sequence of emissions. How
  emissions interleave in time is given as a sequence.
- `FBS.prototype.status` (plugins/fbs/fbs.js:27-38). It calls an undefined
  `self.send`, so it throws before sending anything.
- The storage plugin, the API plugin, the app module and the build
  configuration are outside this core.
- The LoginController's own source is not part of this model. The model
  follows its unit tests, and beyond them:
  - it assumes a rejected or unanswered scan changes nothing;
  - it assumes a valid password leaves the view where it is, because the
    tests do not say what happens next;
  - it assumes each handler changes only what the tests look at:
    `useManualLogin` keeps the password and both error flags,
    `usernameEntered` and `passwordEntered` keep every field but their
    error flag and the view, and a valid username entered from the default
    view also moves to the PIN view.
- Sip2Time.EncodeTime: its length and shape are stated only for four-digit
  years. The reader and the round trip also cover only four-digit years
  and valid clock readings, which are the ones a JavaScript clock
  produces for this kiosk.
- UserService.ChannelsUnique: ids are assumed distinct. The source derives
  them from `Date.now()` (userService.js:43, 81, 110), so two requests of
  one kind in the same millisecond share a channel and can hear each
  other's answer. LoginFlow.ConcurrentLoginsIsolated carries the same
  assumption.
- UserService.RunConsistent: holds only when each login reply arrives
  right after its login. Late replies break it in the code as written (see
  Findings); the guarded session proves it for every order.
- LoginFlow.ClientReply: the proxy service is not part of this model, so
  two mappings are assumed. A flag heard on an error channel becomes the
  fixed error "bad reply", and an error heard on a success channel rejects
  with that error. Nothing in this core emits either.
- Fbs.ServeLoginAsWritten: on every failure without a response (offline,
  a transport error, a non-200 reply whose body reports an error)
  `login`'s callback goes on to read `res.validPatron` and throws
  (plugins/fbs/fbs.js:50). Offline the exception escapes the bus listener;
  otherwise it escapes `request`'s completion callback
  (plugins/fbs/request.js:139). Nothing in this core catches it. The model
  assumes it is caught and that the handler's answer to the already
  rejected promise still runs.
- LoginFlow.AnsweredAsWritten: rests on the same assumption, for the same
  three failures.

## Findings

| source | as written | input that shows it | evidently intended | confidence | as-written member | corrected member |
|---|---|---|---|---|---|---|
| plugins/fbs/request.js:134 | `new Error('Unknown error', response.statusCode())` calls a number, so a TypeError is thrown inside the HTTP completion and the caller's callback never runs | online, HTTP 500, a body whose parse reports no error | call back with `('Unknown error', null)` | high; not executed | Sip2Request.SendAsWritten (exhibited by Sip2Request.StatusCodeCallThrows; end to end, the login hangs: LoginFlow.LoginHangsAsWritten) | Sip2Request.Send |
| plugins/fbs/fbs.js:46-50 | no `return` after `deferred.reject(err)`, so the next line reads `res.validPatron` with `res` null and throws | FBS offline, which gives the callback ('FBS is offline', null); likewise a transport error or a non-200 reply whose body reports an error | return after rejecting; the promise outcome is the same, because it settles once (Fbs.LoginOutcomeUnaffected) | high; not executed | Fbs.LoginAsWritten (exhibited by Fbs.LoginAsWrittenThrows) | Fbs.Login |
| public/js/services/userService.js:49-53 | the success handler sets `loggedIn` from whatever login reply arrives, without checking that it answers the current login | login, logout, then the first login's `true` arrives; or logins A then B, B refused, then A's `true` arrives | ignore replies to a login that a later login or a logout has replaced | medium; not executed | UserService.Perform (exhibited by UserService.LateReplyAfterLogout and UserService.StaleReplyLogsInWrongPatron) | UserService.PerformGuarded (UserService.GuardedConsistent) |

=== FILE: bus.dfy ===
/** The event-bus conventions the FBS plugin and the browser services share:
    a caller emits a request carrying the name of the channel it wants the
    answer on, and listens once on that channel and on an error channel. */
module Bus {
  import opened Wrappers

  /** The JSON object a caller attaches to a request. */
  datatype Data = Data(username: Option<string>, password: Option<string>, busEvent: string, itemIdentifier: Option<string>)

  /** `proxyService.emitEvent(event, successChannel, errorChannel, data)`. */
  datatype Call = Call(event: string, successChannel: string, errorChannel: string, data: Data)

  /** The answer channel the caller listens on is the one it asks the
      handler to answer on. */
  predicate Correlated(c: Call) {
    c.successChannel == c.data.busEvent
  }

  /** What a handler emits. */
  datatype Payload = Flag(b: bool) | Failure(error: Error)

  datatype Emission = Emission(channel: string, payload: Payload)

  /** What a caller's pair of one-shot listeners hears. */
  datatype Heard = Silent | OnSuccess(payload: Payload) | OnError(payload: Payload)

  /** Whether emission i is on one of the two listened channels. */
  predicate Hits(ems: seq<Emission>, i: int, success: string, error: string)
    requires 0 <= i < |ems|
  {
    ems[i].channel == success || ems[i].channel == error
  }

  /** Emission i is the first on either listened channel. */
  predicate FirstHit(ems: seq<Emission>, i: int, success: string, error: string) {
    && 0 <= i < |ems| && Hits(ems, i, success, error)
    && forall j :: 0 <= j < i ==> !Hits(ems, j, success, error)
  }

  /** The one-shot listeners on `success` and `error` fire for the first
      emission on either channel and ignore everything after it. */
  function Listen(ems: seq<Emission>, success: string, error: string): (h: Heard)
    ensures h.Silent? <==> forall i :: 0 <= i < |ems| ==> !Hits(ems, i, success, error)
    ensures !h.Silent? ==>
      exists i :: FirstHit(ems, i, success, error) && ems[i].payload == h.payload && (h.OnSuccess? <==> ems[i].channel == success)
  {
    if |ems| == 0 then Silent
    else if Hits(ems, 0, success, error) then
      assert FirstHit(ems, 0, success, error);
      if ems[0].channel == success then OnSuccess(ems[0].payload) else OnError(ems[0].payload)
    else
      var h := Listen(ems[1..], success, error);
      assert forall i :: 1 <= i < |ems| ==> Hits(ems, i, success, error) == Hits(ems[1..], i - 1, success, error);
      assert forall k :: FirstHit(ems[1..], k, success, error) ==> FirstHit(ems, k + 1, success, error);
      h
  }

  /** Emissions on other channels before the ones a caller listens for are
      not heard. */
  lemma {:induction false} ListenSkips(pre: seq<Emission>, ems: seq<Emission>, success: string, error: string)
    requires forall i :: 0 <= i < |pre| ==> !Hits(pre, i, success, error)
    ensures Listen(pre + ems, success, error) == Listen(ems, success, error)
    decreases |pre|
  {
    if |pre| == 0 {
      assert pre + ems == ems;
    } else {
      assert (pre + ems)[0] == pre[0];
      assert !Hits(pre, 0, success, error);
      assert (pre + ems)[1..] == pre[1..] + ems;
      assert forall i :: 0 <= i < |pre| - 1 ==> Hits(pre[1..], i, success, error) == Hits(pre, i + 1, success, error);
      ListenSkips(pre[1..], ems, success, error);
    }
  }

  /** Once a caller has heard its answer, later emissions change nothing:
      the listeners are one-shot. */
  lemma {:induction false} ListenKeeps(ems: seq<Emission>, more: seq<Emission>, success: string, error: string)
    requires !Listen(ems, success, error).Silent?
    ensures Listen(ems + more, success, error) == Listen(ems, success, error)
    decreases |ems|
  {
    assert (ems + more)[0] == ems[0];
    if !Hits(ems, 0, success, error) {
      assert (ems + more)[1..] == ems[1..] + more;
      ListenKeeps(ems[1..], more, success, error);
    }
  }
}

=== FILE: decimal.dfy ===
/** Decimal text of non-negative integers, as JavaScript's string
    conversion writes them, and its inverse. */
module Decimal {

  predicate IsDigit(c: char) {
    '0' <= c <= '9'
  }

  predicate IsDigits(s: string) {
    forall i :: 0 <= i < |s| ==> IsDigit(s[i])
  }

  /** The character of decimal digit d. */
  function DigitChar(d: nat): (c: char)
    requires d < 10
    ensures IsDigit(c) && c as int == 48 + d
  {
    (48 + d) as char
  }

  /** The value of a digit character. */
  function DigitValue(c: char): (d: nat)
    requires IsDigit(c)
    ensures d < 10 && DigitChar(d) == c
  {
    c as int - 48
  }

  /** `String(n)` for a non-negative integer n below 10^21, where
      JavaScript switches to exponent form: digits, no leading zero. That
      covers every year a JavaScript Date holds. */
  function NatToString(n: nat): (s: string)
    ensures |s| >= 1 && IsDigits(s)
    ensures s[|s| - 1] == DigitChar(n % 10)
    ensures |s| == 1 <==> n < 10
    ensures s[0] == '0' ==> n == 0
  {
    if n < 10 then [DigitChar(n)] else NatToString(n / 10) + [DigitChar(n % 10)]
  }

  /** The number a string of decimal digits denotes (leading zeros allowed). */
  function DecodeDigits(s: string): nat
    requires IsDigits(s)
  {
    if |s| == 0 then 0 else DecodeDigits(s[..|s| - 1]) * 10 + DigitValue(s[|s| - 1])
  }

  /** The text NatToString produces: digits without a superfluous leading zero. */
  predicate Canonical(s: string) {
    |s| >= 1 && IsDigits(s) && (s[0] != '0' || |s| == 1)
  }

  lemma {:induction false} DecodeNatToString(n: nat)
    ensures DecodeDigits(NatToString(n)) == n
  {
    if n >= 10 {
      var s := NatToString(n);
      assert s[..|s| - 1] == NatToString(n / 10);
      DecodeNatToString(n / 10);
    }
  }

  /** A digit string whose first digit is not zero denotes a positive number. */
  lemma {:induction false} LeadingNonZeroIsPositive(s: string)
    requires |s| >= 1 && IsDigits(s) && s[0] != '0'
    ensures DecodeDigits(s) >= 1
  {
    if |s| > 1 {
      LeadingNonZeroIsPositive(s[..|s| - 1]);
    }
  }

  lemma {:induction false} NatToStringDecode(s: string)
    requires Canonical(s)
    ensures NatToString(DecodeDigits(s)) == s
  {
    if |s| > 1 {
      var p := s[..|s| - 1];
      LeadingNonZeroIsPositive(p);
      NatToStringDecode(p);
      assert s == p + [s[|s| - 1]];
    }
  }

  /** NatToString and DecodeDigits are inverse bijections between the
      naturals and the canonical digit strings. */
  lemma {:induction false} DecimalRoundTrip(n: nat, s: string)
    ensures Canonical(NatToString(n)) && DecodeDigits(NatToString(n)) == n
    ensures Canonical(s) ==> NatToString(DecodeDigits(s)) == s
  {
    DecodeNatToString(n);
    if Canonical(s) {
      NatToStringDecode(s);
    }
  }

  /** Exactly the numbers 1000..9999 are written with four digits. */
  lemma FourDigits(n: nat)
    ensures |NatToString(n)| == 4 <==> 1000 <= n <= 9999
  {
    var a, b, c := n / 10, n / 100, n / 1000;
    assert a / 10 == b && b / 10 == c;
    if n >= 10 {
      assert |NatToString(n)| == |NatToString(a)| + 1;
      if a >= 10 {
        assert |NatToString(a)| == |NatToString(b)| + 1;
        if b >= 10 {
          assert |NatToString(b)| == |NatToString(c)| + 1;
        }
      }
    }
  }
}

=== FILE: fbs.dfy ===
/** The FBS plugin: patron login over SIP2 patron status, and the bus
    handler that answers `fbs.login` requests. */
module Fbs {
  import opened Wrappers
  import opened Sip2Time
  import opened Sip2Request
  import opened Bus

  /** A patron is let in when both validity fields of the patron-status
      reply read "Y". */
  predicate ValidLogin(res: Response) {
    res.validPatron == Some("Y") && res.validPatronPassword == Some("Y")
  }

  /** The patron-status reply reached the parser with status 200, reports no
      remote error and vouches for both patron and password. */
  predicate Accepted(online: bool, reply: HttpReply, parse: (string, string) -> Response) {
    Delivered(online, reply) && !parse(reply.body, "AO").hasError && ValidLogin(parse(reply.body, "AO"))
  }

  /** One run of `login`: the request it sent, the state its deferred ends in,
      and the exception that escaped its callback, if any. */
  datatype LoginRun = LoginRun(exchange: Exchange, promise: Promise<bool>, thrown: Option<Error>)

  /** What reading `res.validPatron` with `res === null` throws. */
  const NullDereference: Error := Error("TypeError: Cannot read property 'validPatron' of null")

  /** The deferred calls `login`'s callback makes as written: a reject when
      there is an error, then -- with no `return` in between -- a resolve. */
  function LoginSettles(err: Option<Error>, res: Response): seq<Settle<bool>>
  {
    (if err.Some? then [DoReject(err.value)] else []) + [DoResolve(ValidLogin(res))]
  }

  /** `login` as written. After rejecting it goes on to read `res.validPatron`;
      when the error came without a response (offline, transport failure,
      non-200 status) that read throws. (The request is sent with the
      corrected Send, so that this is the only difference.) */
  function LoginAsWritten(cfg: Config, now: Date, username: string, password: string,
                          online: bool, reply: HttpReply, parse: (string, string) -> Response): (r: LoginRun)
    ensures r.exchange == Send(cfg, PatronStatus(cfg, now, username, password), "AO", online, reply, parse)
  {
    var ex := Send(cfg, PatronStatus(cfg, now, username, password), "AO", online, reply, parse);
    match ex.completion
    case Thrown(e) => LoginRun(ex, Pending, Some(e))
    case Callback(err, res) =>
      match res
      case None =>
        var p := if err.Some? then Reject(Pending, err.value) else Pending;
        LoginRun(ex, p, Some(NullDereference))
      case Some(v) =>
        LoginRun(ex, ApplyAll(Pending, LoginSettles(err, v)), None)
  }

  /** `login` with a `return` after the reject: it sends a patron-status
      request with the credentials unchanged, and settles its promise to
      true exactly when the FBS accepted them, to false when the FBS answered
      but refused them, and rejects it on every error. */
  function Login(cfg: Config, now: Date, username: string, password: string,
                 online: bool, reply: HttpReply, parse: (string, string) -> Response): (r: LoginRun)
    ensures r.exchange.posted == if online then Some(Post(cfg.endpoint, PatronStatus(cfg, now, username, password))) else None
    ensures r.thrown == None && !r.promise.Pending?
    ensures r.promise == Resolved(true) <==> Accepted(online, reply, parse)
    ensures r.promise == Resolved(false) <==>
      Delivered(online, reply) && !parse(reply.body, "AO").hasError && !ValidLogin(parse(reply.body, "AO"))
    ensures r.promise.Rejected? <==> !Delivered(online, reply) || parse(reply.body, "AO").hasError
    ensures !online ==> r.promise == Rejected(OfflineError)
    ensures r.promise.Rejected? ==>
      Some(r.promise.error) == Send(cfg, PatronStatus(cfg, now, username, password), "AO", online, reply, parse).completion.err
  {
    var ex := Send(cfg, PatronStatus(cfg, now, username, password), "AO", online, reply, parse);
    match ex.completion
    case Thrown(e) => LoginRun(ex, Pending, Some(e))
    case Callback(err, res) =>
      if err.Some? then LoginRun(ex, Rejected(err.value), None)
      else
        match res
        case Some(v) => LoginRun(ex, Resolved(ValidLogin(v)), None)
        case None => LoginRun(ex, Pending, None)
  }

  /** Settling once makes the missing `return` harmless to the outcome: the
      as-written login settles exactly as the corrected one. */
  lemma LoginOutcomeUnaffected(cfg: Config, now: Date, username: string, password: string,
                               online: bool, reply: HttpReply, parse: (string, string) -> Response)
    ensures LoginAsWritten(cfg, now, username, password, online, reply, parse).promise
         == Login(cfg, now, username, password, online, reply, parse).promise
  {
    var ex := Send(cfg, PatronStatus(cfg, now, username, password), "AO", online, reply, parse);
    if ex.completion.res.Some? {
      FirstCallWins(LoginSettles(ex.completion.err, ex.completion.res.value));
    }
  }

  /** ... but not to the process: the as-written callback throws exactly
      when the request failed without a response. */
  lemma LoginAsWrittenThrows(cfg: Config, now: Date, username: string, password: string,
                             online: bool, reply: HttpReply, parse: (string, string) -> Response)
    ensures LoginAsWritten(cfg, now, username, password, online, reply, parse).thrown.Some?
        <==> !Delivered(online, reply)
    ensures !online ==> LoginAsWritten(cfg, now, username, password, online, reply, parse).thrown == Some(NullDereference)
  {
  }

  /** The `fbs.login` handler: the login result on the caller's channel, or
      on failure `fbs.err` with the error followed by false on the caller's
      channel. A login that never settles emits nothing. */
  function HandleLogin(data: Data, p: Promise<bool>): (r: seq<Emission>)
    ensures forall i :: 0 <= i < |r| ==> r[i].channel == data.busEvent || r[i].channel == "fbs.err"
    ensures p.Pending? <==> |r| == 0
    ensures !p.Pending? ==> r[|r| - 1] == Emission(data.busEvent, Flag(p == Resolved(true)))
    ensures p.Rejected? <==> |r| == 2
    ensures p.Rejected? ==> r[0] == Emission("fbs.err", Failure(p.error))
    ensures p.Resolved? ==> r == [Emission(data.busEvent, Flag(p.value))]
  {
    match p
    case Resolved(isLoggedIn) => [Emission(data.busEvent, Flag(isLoggedIn))]
    case Rejected(err) => [Emission("fbs.err", Failure(err)), Emission(data.busEvent, Flag(false))]
    case Pending => []
  }

  /** The plugin's whole answer to one `fbs.login` request. The credentials
      are concatenated into the request line, so a null one becomes "null". */
  function ServeLogin(cfg: Config, now: Date, data: Data, online: bool, reply: HttpReply,
                      parse: (string, string) -> Response): seq<Emission>
  {
    HandleLogin(data, Login(cfg, now, JsString(data.username), JsString(data.password), online, reply, parse).promise)
  }

  /** Whether `send` as written throws on the patron-status request for
      these credentials (a non-200 reply whose body reports no error). */
  predicate SendThrows(cfg: Config, now: Date, data: Data, online: bool, reply: HttpReply,
                       parse: (string, string) -> Response) {
    var line := PatronStatus(cfg, now, JsString(data.username), JsString(data.password));
    SendAsWritten(cfg, line, "AO", online, reply, parse).completion.Thrown?
  }

  /** The plugin with `send` as written as well: when `send` throws, the
      callback never runs, the deferred stays pending and the handler emits
      nothing. Otherwise it answers as the corrected plugin does, on the
      assumption that the exception the callback throws after a failure
      without a response is caught. */
  function ServeLoginAsWritten(cfg: Config, now: Date, data: Data, online: bool, reply: HttpReply,
                               parse: (string, string) -> Response): (r: seq<Emission>)
    ensures SendThrows(cfg, now, data, online, reply, parse) ==> r == []
    ensures !SendThrows(cfg, now, data, online, reply, parse) ==> r == ServeLogin(cfg, now, data, online, reply, parse)
  {
    var username, password := JsString(data.username), JsString(data.password);
    var ex := SendAsWritten(cfg, PatronStatus(cfg, now, username, password), "AO", online, reply, parse);
    if ex.completion.Thrown? then HandleLogin(data, Pending)
    else
      LoginOutcomeUnaffected(cfg, now, username, password, online, reply, parse);
      HandleLogin(data, LoginAsWritten(cfg, now, username, password, online, reply, parse).promise)
  }

  /** With `send` corrected, a login request is always answered on its own
      channel, exactly once, and the answer is true exactly when the FBS
      accepted the credentials: a failed, refused or offline login reads as
      not logged in. `fbs.err` is emitted exactly when the request failed. */
  lemma LoginAnswer(cfg: Config, now: Date, data: Data, online: bool, reply: HttpReply,
                    parse: (string, string) -> Response)
    requires data.busEvent != "fbs.err"
    ensures var ems := ServeLogin(cfg, now, data, online, reply, parse);
      && |ems| >= 1
      && ems[|ems| - 1] == Emission(data.busEvent, Flag(Accepted(online, reply, parse)))
      && (forall i :: 0 <= i < |ems| - 1 ==> ems[i].channel == "fbs.err")
      && ((exists i :: 0 <= i < |ems| && ems[i].channel == "fbs.err")
          <==> !Delivered(online, reply) || parse(reply.body, "AO").hasError)
  {
    var ems := ServeLogin(cfg, now, data, online, reply, parse);
    if |ems| == 2 {
      assert ems[0].channel == "fbs.err";
    }
  }
}

=== FILE: login_controller.dfy ===
/** The kiosk's login screen, as its behaviour is pinned down by the
    controller's unit tests: a default (barcode) view, a manual view asking
    for the library card number, and a view asking for the PIN. */
module LoginController {
  import opened Wrappers
  import opened Decimal

  datatype Display = Default | Username | Password

  datatype Controller = Controller(
    display: Display,
    username: string,
    password: string,
    usernameValidationError: bool,
    passwordValidationError: bool)

  /** The scope as the controller builds it: an empty user and the barcode
      view. */
  const Initial: Controller := Controller(Default, "", "", false, false)

  /** A card number is exactly ten decimal digits. */
  predicate ValidUsername(u: string) {
    |u| == 10 && IsDigits(u)
  }

  /** A PIN is at least one decimal digit. */
  predicate ValidPassword(p: string) {
    |p| > 0 && IsDigits(p)
  }

  /** `useManualLogin`: switch between the barcode view and the manual
      view; either way the username typed or scanned so far is cleared. */
  function UseManualLogin(c: Controller, manual: bool): (r: Controller)
    ensures r.display == (if manual then Username else Default)
    ensures r.username == ""
    ensures r.password == c.password
    ensures r.usernameValidationError == c.usernameValidationError
    ensures r.passwordValidationError == c.passwordValidationError
  {
    c.(display := if manual then Username else Default, username := "")
  }

  /** The barcode scanner's answer: a scanned card number becomes the
      username; a failed or unanswered scan changes nothing. */
  function BarcodeResult(c: Controller, scan: Promise<string>): (r: Controller)
    ensures scan.Resolved? ==> r == c.(username := scan.value)
    ensures !scan.Resolved? ==> r == c
  {
    match scan
    case Resolved(code) => c.(username := code)
    case _ => c
  }

  /** `usernameEntered`: a valid card number clears the error and moves on
      to the PIN; anything else sets the error and stays put. */
  function UsernameEntered(c: Controller): (r: Controller)
    ensures r.usernameValidationError <==> !ValidUsername(c.username)
    ensures r.display == (if ValidUsername(c.username) then Password else c.display)
    ensures r.username == c.username && r.password == c.password
    ensures r.passwordValidationError == c.passwordValidationError
  {
    if ValidUsername(c.username) then
      c.(usernameValidationError := false, display := Password)
    else
      c.(usernameValidationError := true)
  }

  /** `passwordEntered`: the error flag says whether the PIN was rejected;
      the view does not change. */
  function PasswordEntered(c: Controller): (r: Controller)
    ensures r.passwordValidationError <==> !ValidPassword(c.password)
    ensures r.display == c.display
    ensures r.username == c.username && r.password == c.password
    ensures r.usernameValidationError == c.usernameValidationError
  {
    c.(passwordValidationError := !ValidPassword(c.password))
  }

  /** What the patron or the scanner does on the screen. */
  datatype Event =
    | ManualLogin(manual: bool)
    | Scanned(scan: Promise<string>)
    | TypeUsername(text: string)
    | TypePassword(text: string)
    | SubmitUsername
    | SubmitPassword

  function Handle(c: Controller, e: Event): Controller {
    match e
    case ManualLogin(m) => UseManualLogin(c, m)
    case Scanned(s) => BarcodeResult(c, s)
    case TypeUsername(t) => c.(username := t)
    case TypePassword(t) => c.(password := t)
    case SubmitUsername => UsernameEntered(c)
    case SubmitPassword => PasswordEntered(c)
  }

  function Run(c: Controller, evs: seq<Event>): Controller
    decreases |evs|
  {
    if |evs| == 0 then c else Run(Handle(c, evs[0]), evs[1..])
  }

  lemma RunAppend(c: Controller, evs: seq<Event>, more: seq<Event>)
    ensures Run(c, evs + more) == Run(Run(c, evs), more)
    decreases |evs|
  {
    if |evs| > 0 {
      assert (evs + more)[1..] == evs[1..] + more;
      RunAppend(Handle(c, evs[0]), evs[1..], more);
    } else {
      assert evs + more == more;
    }
  }

  /** The only way to the PIN view is to submit a valid card number: any
      run that ends there from another view contains a `usernameEntered`
      made while the username was ten digits. */
  lemma {:induction false} PasswordNeedsValidUsername(c: Controller, evs: seq<Event>)
    requires c.display != Password
    requires Run(c, evs).display == Password
    ensures exists i :: 0 <= i < |evs| && evs[i] == SubmitUsername && ValidUsername(Run(c, evs[..i]).username)
    decreases |evs|
  {
    if |evs| == 0 {
      // Run(c, []) is c itself, which is not in the PIN view.
    } else if evs[0] == SubmitUsername && ValidUsername(c.username) {
      assert evs[..0] == [];
      assert Run(c, evs[..0]) == c;
    } else {
      var c1 := Handle(c, evs[0]);
      PasswordNeedsValidUsername(c1, evs[1..]);
      var j :| 0 <= j < |evs[1..]| && evs[1..][j] == SubmitUsername && ValidUsername(Run(c1, evs[1..][..j]).username);
      assert evs[..j + 1][1..] == evs[1..][..j];
      assert Run(c, evs[..j + 1]) == Run(c1, evs[1..][..j]);
      assert evs[j + 1] == SubmitUsername;
    }
  }

  /** Leaving the manual views is always possible: `useManualLogin(false)`
      returns to the barcode view with nothing typed in the username. */
  lemma BackToBarcode(c: Controller, evs: seq<Event>)
    ensures Run(c, evs + [ManualLogin(false)]).display == Default
    ensures Run(c, evs + [ManualLogin(false)]).username == ""
  {
    RunAppend(c, evs, [ManualLogin(false)]);
  }

  // The scenarios of the controller's unit tests.

  /** The scope starts in the barcode view with string credentials. */
  lemma InitialScope()
    ensures Initial.display == Default && Initial.username == "" && Initial.password == ""
    ensures !Initial.usernameValidationError && !Initial.passwordValidationError
  {
  }

  lemma ManualLoginClearsUsername()
    ensures var c := Run(Initial, [TypeUsername("Test"), ManualLogin(true)]);
      c.display == Username && c.username == ""
    ensures var c := Run(Initial, [TypeUsername("Test"), ManualLogin(true), TypeUsername("Test"), ManualLogin(false)]);
      c.display == Default && c.username == ""
  {
  }

  lemma RejectsShortOrNonDigitUsername()
    ensures var c := Run(Initial, [ManualLogin(true), TypeUsername("123"), SubmitUsername]);
      c.usernameValidationError && c.display == Username
    ensures var c := Run(Initial, [ManualLogin(true), TypeUsername("abcdefghij"), SubmitUsername]);
      c.usernameValidationError && c.display == Username
    ensures var c := Run(Initial, [ManualLogin(true), TypeUsername(""), SubmitUsername]);
      c.usernameValidationError && c.display == Username
  {
    assert !IsDigit("abcdefghij"[0]);
  }

  lemma AcceptsTenDigitUsername()
    ensures var c := Run(Initial, [ManualLogin(true), TypeUsername("1234567890"), SubmitUsername]);
      !c.usernameValidationError && c.display == Password
  {
    assert IsDigits("1234567890");
  }

  lemma OnlyNonEmptyDigitPassword()
    ensures var c := Run(Initial, [ManualLogin(true), TypeUsername("1234567890"), SubmitUsername, TypePassword(""), SubmitPassword]);
      c.passwordValidationError && c.display == Password
    ensures var c := Run(Initial, [ManualLogin(true), TypeUsername("1234567890"), SubmitUsername, TypePassword("abc"), SubmitPassword]);
      c.passwordValidationError && c.display == Password
    ensures var c := Run(Initial, [ManualLogin(true), TypeUsername("1234567890"), SubmitUsername, TypePassword("1"), SubmitPassword]);
      !c.passwordValidationError
  {
    assert IsDigits("1234567890");
    assert !IsDigit("abc"[0]);
    assert IsDigits("1");
  }

  lemma AcceptsBarcode()
    ensures var c := Run(Initial, [ManualLogin(false), Scanned(Resolved("1234"))]);
      c.display == Default && c.username == "1234"
  {
  }
}

=== FILE: login_flow.dfy ===
/** A patron login end to end: the browser's user service emits
    `fbs.login`, the FBS plugin answers on the bus, and the proxy service's
    one-shot listeners turn the first answer into the promise the user
    service waits on. */
module LoginFlow {
  import opened Wrappers
  import opened Sip2Time
  import opened Sip2Request
  import opened Bus
  import Fbs
  import UserService

  /** The promise `proxyService.emitEvent` returns: resolved with what was
      heard on the success channel, rejected with what was heard on the
      error channel, pending while nothing was heard. */
  function ClientReply(h: Heard): (r: Promise<bool>)
    ensures h.Silent? ==> r.Pending?
    ensures h == OnSuccess(Flag(true)) ==> r == Resolved(true)
    ensures h == OnSuccess(Flag(false)) ==> r == Resolved(false)
  {
    match h
    case OnSuccess(Flag(b)) => Resolved(b)
    case OnSuccess(Failure(e)) => Rejected(e)
    case OnError(Flag(_)) => Rejected(Error("bad reply"))
    case OnError(Failure(e)) => Rejected(e)
    case Silent => Pending
  }

  /** The request `userService.login(user, pass)` puts on the bus. */
  function LoginCall(user: string, pass: string, uniqueId: string): Call {
    UserService.Login(UserService.Initial, user, pass, uniqueId, Pending).call
  }

  /** What the FBS plugin emits when it serves that request. */
  function Served(cfg: Config, now: Date, user: string, pass: string, uniqueId: string,
                  online: bool, reply: HttpReply, parse: (string, string) -> Response): seq<Emission>
  {
    Fbs.ServeLogin(cfg, now, LoginCall(user, pass, uniqueId).data, online, reply, parse)
  }

  /** Channels of different logins, and the plugin's error channel, are
      all distinct from the channels one login listens on. */
  lemma LoginChannels(user: string, pass: string, id: string)
    ensures LoginCall(user, pass, id).successChannel != "fbs.err"
    ensures LoginCall(user, pass, id).successChannel != "fbs.login.error"
    ensures LoginCall(user, pass, id).errorChannel == "fbs.login.error"
  {
    var c := LoginCall(user, pass, id);
    assert c.successChannel == "fbs.login.success" + id;
    assert c.successChannel[10] == 's' && "fbs.login.error"[10] == 'e';
  }

  /** With `send` corrected, whatever the reply on the FBS side, a login
      is heard on the caller's success channel, the patron is logged in
      exactly when the FBS accepted the credentials, and the credentials
      stay stored. A failed or offline login never rejects the caller's
      promise: the plugin reports the failure on `fbs.err`, which the
      caller does not listen to, and then answers false. */
  lemma LoginEndToEnd(s: UserService.Session, user: string, pass: string, uniqueId: string,
                      cfg: Config, now: Date, online: bool, reply: HttpReply,
                      parse: (string, string) -> Response)
    ensures var call := LoginCall(user, pass, uniqueId);
      var h := Listen(Served(cfg, now, user, pass, uniqueId, online, reply, parse), call.successChannel, call.errorChannel);
      var st := UserService.Login(s, user, pass, uniqueId, ClientReply(h));
      && h == OnSuccess(Flag(Fbs.Accepted(online, reply, parse)))
      && st.promise == Resolved(Fbs.Accepted(online, reply, parse))
      && UserService.UserLoggedIn(st.state) == Fbs.Accepted(online, reply, parse)
      && st.state.username == Some(user) && st.state.password == Some(pass)
  {
    var call := LoginCall(user, pass, uniqueId);
    var ems := Served(cfg, now, user, pass, uniqueId, online, reply, parse);
    LoginChannels(user, pass, uniqueId);
    Fbs.LoginAnswer(cfg, now, call.data, online, reply, parse);
    var n := |ems| - 1;
    var pre := ems[..n];
    assert ems == pre + [ems[n]];
    assert forall i :: 0 <= i < |pre| ==> pre[i].channel == "fbs.err";
    ListenSkips(pre, [ems[n]], call.successChannel, call.errorChannel);
  }

  /** Two logins in flight at once, with different ids, never answer each
      other: whichever order the plugin's emissions arrive in, the second
      caller hears exactly the answer to its own request. */
  lemma ConcurrentLoginsIsolated(cfg: Config, now: Date,
                                 user1: string, pass1: string, id1: string, online1: bool, reply1: HttpReply,
                                 user2: string, pass2: string, id2: string, online2: bool, reply2: HttpReply,
                                 parse: (string, string) -> Response)
    requires id1 != id2
    ensures var call := LoginCall(user2, pass2, id2);
      var ems1 := Served(cfg, now, user1, pass1, id1, online1, reply1, parse);
      var ems2 := Served(cfg, now, user2, pass2, id2, online2, reply2, parse);
      && Listen(ems1 + ems2, call.successChannel, call.errorChannel) == OnSuccess(Flag(Fbs.Accepted(online2, reply2, parse)))
      && Listen(ems2 + ems1, call.successChannel, call.errorChannel) == OnSuccess(Flag(Fbs.Accepted(online2, reply2, parse)))
  {
    var call1 := LoginCall(user1, pass1, id1);
    var call := LoginCall(user2, pass2, id2);
    var ems1 := Served(cfg, now, user1, pass1, id1, online1, reply1, parse);
    var ems2 := Served(cfg, now, user2, pass2, id2, online2, reply2, parse);
    LoginChannels(user1, pass1, id1);
    LoginChannels(user2, pass2, id2);
    UserService.ChannelsUnique("login", id1, id2);
    Fbs.LoginAnswer(cfg, now, call1.data, online1, reply1, parse);
    assert forall i :: 0 <= i < |ems1| ==> ems1[i].channel == "fbs.err" || ems1[i].channel == call1.successChannel;
    assert forall i :: 0 <= i < |ems1| ==> !Hits(ems1, i, call.successChannel, call.errorChannel);
    ListenSkips(ems1, ems2, call.successChannel, call.errorChannel);
    LoginEndToEnd(UserService.Initial, user2, pass2, id2, cfg, now, online2, reply2, parse);
    ListenKeeps(ems2, ems1, call.successChannel, call.errorChannel);
  }

  /** What the plugin emits for that request with `send` as written. */
  function ServedAsWritten(cfg: Config, now: Date, user: string, pass: string, uniqueId: string,
                           online: bool, reply: HttpReply, parse: (string, string) -> Response): seq<Emission>
  {
    Fbs.ServeLoginAsWritten(cfg, now, LoginCall(user, pass, uniqueId).data, online, reply, parse)
  }

  /** As written, a login whose HTTP reply is not status 200 and whose body
      reports no error is never answered: `send` throws, the plugin emits
      nothing, the caller hears nothing, its promise stays pending and the
      session keeps whatever `loggedIn` it had. */
  lemma LoginHangsAsWritten(s: UserService.Session, user: string, pass: string, uniqueId: string,
                            cfg: Config, now: Date, reply: HttpReply, parse: (string, string) -> Response)
    requires reply.HttpResponse? && reply.statusCode != 200 && !parse(reply.body, "AO").hasError
    ensures var call := LoginCall(user, pass, uniqueId);
      var ems := ServedAsWritten(cfg, now, user, pass, uniqueId, true, reply, parse);
      var h := Listen(ems, call.successChannel, call.errorChannel);
      var st := UserService.Login(s, user, pass, uniqueId, ClientReply(h));
      && SendAsWritten(cfg, PatronStatus(cfg, now, user, pass), "AO", true, reply, parse).completion.Thrown?
      && ems == [] && h == Silent
      && st.promise.Pending? && st.state.loggedIn == s.loggedIn
  {
  }

  /** Otherwise `send` as written changes nothing the caller hears
      (assuming, as `Fbs.ServeLoginAsWritten` does, that the exception
      `login`'s callback throws after a failure is caught). */
  lemma AnsweredAsWritten(user: string, pass: string, uniqueId: string,
                          cfg: Config, now: Date, online: bool, reply: HttpReply, parse: (string, string) -> Response)
    requires !(online && reply.HttpResponse? && reply.statusCode != 200 && !parse(reply.body, "AO").hasError)
    ensures ServedAsWritten(cfg, now, user, pass, uniqueId, online, reply, parse)
         == Served(cfg, now, user, pass, uniqueId, online, reply, parse)
  {
  }
}

=== FILE: sip2_frame.dfy ===
/** The shape every SIP2 request line built here shares: a fixed header
    (operation code, timestamps, flags) followed by pipe-delimited fields,
    each a 2-letter code immediately followed by its value, and a closing
    pipe. Encode is that layout; Split and Decode read it back. */
module Sip2Frame {
  import opened Wrappers

  datatype Field = Field(code: string, value: string)

  datatype Message = Message(header: string, fields: seq<Field>)

  /** `|code value` for every field, in order. */
  function FieldText(f: Field): string {
    "|" + f.code + f.value
  }

  function FieldsText(fs: seq<Field>): string
  {
    if |fs| == 0 then "" else FieldText(fs[0]) + FieldsText(fs[1..])
  }

  lemma FieldsText3(a: Field, b: Field, c: Field)
    ensures FieldsText([a, b, c]) == FieldText(a) + FieldText(b) + FieldText(c)
  {
    assert [c][1..] == [];
    assert FieldsText([c]) == FieldText(c);
    assert [b, c][1..] == [c];
    assert FieldsText([b, c]) == FieldText(b) + FieldText(c);
    assert [a, b, c][1..] == [b, c];
  }

  lemma FieldsText4(a: Field, b: Field, c: Field, d: Field)
    ensures FieldsText([a, b, c, d]) == FieldText(a) + FieldText(b) + FieldText(c) + FieldText(d)
  {
    assert [a, b, c, d][1..] == [b, c, d];
    FieldsText3(b, c, d);
  }

  lemma FieldsText5(a: Field, b: Field, c: Field, d: Field, e: Field)
    ensures FieldsText([a, b, c, d, e]) == FieldText(a) + FieldText(b) + FieldText(c) + FieldText(d) + FieldText(e)
  {
    assert [a, b, c, d, e][1..] == [b, c, d, e];
    FieldsText4(b, c, d, e);
  }

  lemma FieldsText6(a: Field, b: Field, c: Field, d: Field, e: Field, f: Field)
    ensures FieldsText([a, b, c, d, e, f])
      == FieldText(a) + FieldText(b) + FieldText(c) + FieldText(d) + FieldText(e) + FieldText(f)
  {
    assert [a, b, c, d, e, f][1..] == [b, c, d, e, f];
    FieldsText5(b, c, d, e, f);
  }

  /** The wire text of a message: header, fields, closing pipe. */
  function Encode(m: Message): string
  {
    m.header + FieldsText(m.fields) + "|"
  }

  /** A message whose text can be read back: no delimiter inside the header
      or a value, and every code two pipe-free characters. */
  predicate WellFormed(m: Message) {
    && '|' !in m.header
    && forall i :: 0 <= i < |m.fields| ==>
         |m.fields[i].code| == 2 && '|' !in m.fields[i].code && '|' !in m.fields[i].value
  }

  /** Tokens joined with the delimiter between them. */
  function Join(ts: seq<string>): string
    requires |ts| >= 1
  {
    if |ts| == 1 then ts[0] else ts[0] + "|" + Join(ts[1..])
  }

  /** The text cut at every delimiter; never empty, no token holds a pipe. */
  function Split(s: string): (ts: seq<string>)
    ensures |ts| >= 1
    ensures forall i :: 0 <= i < |ts| ==> '|' !in ts[i]
  {
    if |s| == 0 then [""]
    else if s[0] == '|' then [""] + Split(s[1..])
    else
      var rest := Split(s[1..]);
      [[s[0]] + rest[0]] + rest[1..]
  }

  /** Cutting a pipe-free prefix extends the first token only. */
  lemma {:induction false} SplitPrefix(a: string, b: string)
    requires '|' !in a
    ensures Split(a + b) == [a + Split(b)[0]] + Split(b)[1..]
    decreases |a|
  {
    if |a| > 0 {
      assert (a + b)[1..] == a[1..] + b;
      SplitPrefix(a[1..], b);
      assert [a[0]] + (a[1..] + Split(b)[0]) == a + Split(b)[0];
    } else {
      var ts := Split(b);
      assert a + b == b && a + ts[0] == ts[0];
      assert [ts[0]] + ts[1..] == ts;
    }
  }

  /** Split undoes Join on pipe-free tokens. */
  lemma {:induction false} SplitJoin(ts: seq<string>)
    requires |ts| >= 1
    requires forall i :: 0 <= i < |ts| ==> '|' !in ts[i]
    ensures Split(Join(ts)) == ts
    decreases |ts|
  {
    if |ts| == 1 {
      SplitPrefix(ts[0], "");
      assert ts[0] + "" == ts[0];
    } else {
      var rest := Join(ts[1..]);
      SplitJoin(ts[1..]);
      assert ts[0] + "|" + rest == ts[0] + ("|" + rest);
      SplitPrefix(ts[0], "|" + rest);
      assert ("|" + rest)[1..] == rest;
      assert ts[0] + "" == ts[0];
      assert ts == [ts[0]] + ts[1..];
    }
  }

  lemma JoinCons(c: char, ts: seq<string>)
    requires |ts| >= 1
    ensures Join([[c] + ts[0]] + ts[1..]) == [c] + Join(ts)
  {
    if |ts| == 1 {
      assert [[c] + ts[0]] + ts[1..] == [[c] + ts[0]];
    } else {
      JoinConsLonger(c, ts);
    }
  }

  lemma JoinConsLonger(c: char, ts: seq<string>)
    requires |ts| >= 2
    ensures Join([[c] + ts[0]] + ts[1..]) == [c] + Join(ts)
  {
    var us := [[c] + ts[0]] + ts[1..];
    ConsParts([c] + ts[0], ts[1..]);
    JoinHead(us);
    JoinHead(ts);
    AppendAssoc([c], ts[0], "|" + Join(ts[1..]));
  }

  lemma HeadTail<T>(s: seq<T>)
    requires |s| > 0
    ensures s == [s[0]] + s[1..]
  {
  }

  lemma FieldOfToken(t: string)
    requires |t| >= 2
    ensures t[..2] + t[2..] == t
  {
  }

  lemma FieldTokensCons(fs: seq<Field>)
    requires |fs| > 0
    ensures FieldTokens(fs) == [fs[0].code + fs[0].value] + FieldTokens(fs[1..])
  {
  }

  lemma ConsParts(h: string, tail: seq<string>)
    ensures ([h] + tail)[0] == h && ([h] + tail)[1..] == tail
  {
  }

  lemma JoinHead(ts: seq<string>)
    requires |ts| >= 2
    ensures Join(ts) == ts[0] + ("|" + Join(ts[1..]))
  {
    AppendAssoc(ts[0], "|", Join(ts[1..]));
  }

  lemma AppendAssoc(a: string, b: string, c: string)
    ensures (a + b) + c == a + (b + c)
  {
  }

  /** Join undoes Split: cutting loses nothing. */
  lemma {:induction false} JoinSplit(s: string)
    ensures Join(Split(s)) == s
    decreases |s|
  {
    if |s| > 0 {
      JoinSplit(s[1..]);
      if s[0] == '|' {
        var ts := [""] + Split(s[1..]);
        assert ts[1..] == Split(s[1..]);
        assert s == "" + "|" + s[1..];
      } else {
        JoinCons(s[0], Split(s[1..]));
        assert s == [s[0]] + s[1..];
      }
    }
  }

  function FieldTokens(fs: seq<Field>): (ts: seq<string>)
    ensures |ts| == |fs|
  {
    if |fs| == 0 then [] else [fs[0].code + fs[0].value] + FieldTokens(fs[1..])
  }

  /** The tokens of a message's text: header, one per field, and the empty
      token after the closing pipe. */
  function Tokens(m: Message): seq<string>
  {
    [m.header] + FieldTokens(m.fields) + [""]
  }

  lemma {:induction false} EncodeAsJoin(h: string, fs: seq<Field>)
    ensures h + FieldsText(fs) + "|" == Join([h] + FieldTokens(fs) + [""])
    decreases |fs|
  {
    if |fs| == 0 {
      assert [h] + FieldTokens(fs) + [""] == [h, ""];
    } else {
      var t := fs[0].code + fs[0].value;
      var more := FieldsText(fs[1..]);
      EncodeAsJoin(t, fs[1..]);
      var ts := [h] + FieldTokens(fs) + [""];
      FieldTokensCons(fs);
      assert ts == [h] + ([t] + FieldTokens(fs[1..]) + [""]);
      ConsParts(h, [t] + FieldTokens(fs[1..]) + [""]);
      JoinHead(ts);
      assert FieldsText(fs) == "|" + fs[0].code + fs[0].value + more;
      Regroup(h, fs[0].code, fs[0].value, more);
    }
  }

  /** The delimiter that opens a field closes the token before it. */
  lemma Regroup(h: string, code: string, value: string, more: string)
    ensures h + ("|" + code + value + more) + "|" == h + ("|" + ((code + value) + more + "|"))
  {
  }

  /** The token list a decoder reads as one field per token. */
  function ToFields(ts: seq<string>): (fs: seq<Field>)
    requires forall i :: 0 <= i < |ts| ==> |ts[i]| >= 2
    ensures |fs| == |ts|
    ensures forall i :: 0 <= i < |ts| ==> fs[i] == Field(ts[i][..2], ts[i][2..])
  {
    if |ts| == 0 then [] else [Field(ts[0][..2], ts[0][2..])] + ToFields(ts[1..])
  }

  /** Reads a request line back into header and fields; None when the text
      is not a header, fields of at least two characters and a closing pipe. */
  function Decode(s: string): (r: Option<Message>)
  {
    var ts := Split(s);
    if |ts| >= 2 && ts[|ts| - 1] == "" && forall i :: 1 <= i < |ts| - 1 ==> |ts[i]| >= 2 then
      Some(Message(ts[0], ToFields(ts[1..|ts| - 1])))
    else
      None
  }

  lemma {:induction false} FieldTokensOfToFields(ts: seq<string>)
    requires forall i :: 0 <= i < |ts| ==> |ts[i]| >= 2
    ensures FieldTokens(ToFields(ts)) == ts
    decreases |ts|
  {
    if |ts| > 0 {
      FieldTokensOfToFields(ts[1..]);
      var fs := ToFields(ts);
      assert fs == [Field(ts[0][..2], ts[0][2..])] + ToFields(ts[1..]);
      FieldOfToken(ts[0]);
      assert fs[0].code + fs[0].value == ts[0];
      assert fs[1..] == ToFields(ts[1..]);
      FieldTokensCons(fs);
      HeadTail(ts);
    }
  }

  lemma {:induction false} ToFieldsOfFieldTokens(fs: seq<Field>)
    requires forall i :: 0 <= i < |fs| ==> |fs[i].code| == 2
    ensures forall i :: 0 <= i < |fs| ==> |FieldTokens(fs)[i]| >= 2
    ensures ToFields(FieldTokens(fs)) == fs
    decreases |fs|
  {
    if |fs| > 0 {
      ToFieldsOfFieldTokens(fs[1..]);
      var t := fs[0].code + fs[0].value;
      var ts := FieldTokens(fs);
      assert ts == [t] + FieldTokens(fs[1..]);
      assert ts[0] == t && ts[1..] == FieldTokens(fs[1..]);
      assert t[..2] == fs[0].code && t[2..] == fs[0].value;
      assert ToFields(ts) == [Field(t[..2], t[2..])] + ToFields(ts[1..]);
      assert fs == [fs[0]] + fs[1..];
    }
  }

  lemma {:induction false} FieldTokensNoPipe(fs: seq<Field>)
    requires forall i :: 0 <= i < |fs| ==> '|' !in fs[i].code && '|' !in fs[i].value
    ensures forall i :: 0 <= i < |fs| ==> '|' !in FieldTokens(fs)[i]
    decreases |fs|
  {
    if |fs| > 0 {
      FieldTokensNoPipe(fs[1..]);
      assert FieldTokens(fs)[1..] == FieldTokens(fs[1..]);
    }
  }

  /** Every well-formed message survives the trip through its wire text. */
  lemma FrameRoundTrip(m: Message)
    requires WellFormed(m)
    ensures Decode(Encode(m)) == Some(m)
  {
    var ts := Tokens(m);
    EncodeAsJoin(m.header, m.fields);
    FieldTokensNoPipe(m.fields);
    SplitJoin(ts);
    ToFieldsOfFieldTokens(m.fields);
    assert ts[1..|ts| - 1] == FieldTokens(m.fields);
  }

  /** Every text Decode accepts is exactly the encoding of what it returns,
      and what it returns is well formed. */
  lemma FrameDecodeExact(s: string)
    requires Decode(s).Some?
    ensures WellFormed(Decode(s).value)
    ensures Encode(Decode(s).value) == s
  {
    DecodedWellFormed(s);
    DecodeReencodes(s);
  }

  lemma DecodedWellFormed(s: string)
    requires Decode(s).Some?
    ensures WellFormed(Decode(s).value)
  {
    var ts := Split(s);
    var mid := ts[1..|ts| - 1];
    var m := Decode(s).value;
    assert m.header == ts[0] && m.fields == ToFields(mid);
    forall i | 0 <= i < |m.fields|
      ensures |m.fields[i].code| == 2 && '|' !in m.fields[i].code && '|' !in m.fields[i].value
    {
      var t := mid[i];
      assert t == ts[i + 1] && '|' !in t;
      assert m.fields[i] == Field(t[..2], t[2..]);
      assert t == t[..2] + t[2..];
    }
  }

  lemma DecodeReencodes(s: string)
    requires Decode(s).Some?
    ensures Encode(Decode(s).value) == s
  {
    var ts := Split(s);
    var mid := ts[1..|ts| - 1];
    var m := Decode(s).value;
    assert m.header == ts[0] && m.fields == ToFields(mid) && ts[|ts| - 1] == "";
    FieldTokensOfToFields(mid);
    EncodeAsJoin(m.header, m.fields);
    assert Encode(m) == Join([ts[0]] + mid + [""]);
    Frame3(ts);
    JoinSplit(s);
  }

  lemma Frame3(ts: seq<string>)
    requires |ts| >= 2
    ensures ts == [ts[0]] + ts[1..|ts| - 1] + [ts[|ts| - 1]]
  {
  }
}

=== FILE: sip2_request.dfy ===
/** The FBS request object: builds SIP2 request lines for each circulation
    operation and decides what the caller's callback receives when a line is
    sent. The online probe, the HTTP exchange and the reply parser are
    parameters: `online` is the probe's answer, `reply` what the transport
    returns, `parse` the reply parser. */
module Sip2Request {
  import opened Wrappers
  import opened Sip2Time
  import opened Sip2Frame

  /** The FBS settings the request object receives from the configuration
      service when it is constructed. */
  datatype Config = Config(username: string, password: string, endpoint: string, agency: string, location: string)

  /** `new Array(n).join(sep)`: n empty elements, so n - 1 separators. */
  function EmptyArrayJoin(n: nat, sep: string): (r: string)
    ensures |r| == if n == 0 then 0 else (n - 1) * |sep|
    ensures forall i :: 0 <= i < |r| ==> r[i] in sep
  {
    if n <= 1 then "" else sep + EmptyArrayJoin(n - 1, sep)
  }

  /** ... and those separators are copies of `sep`, one after another:
      character i is character i mod |sep| of the separator. */
  lemma {:induction false} EmptyArrayJoinRepeats(n: nat, sep: string)
    ensures |sep| > 0 ==> forall i :: 0 <= i < |EmptyArrayJoin(n, sep)| ==>
      EmptyArrayJoin(n, sep)[i] == sep[i % |sep|]
  {
    if n > 1 {
      EmptyArrayJoinRepeats(n - 1, sep);
      PeriodicPrefix(sep, EmptyArrayJoin(n - 1, sep));
    }
  }

  /** Prefixing one more copy of the separator keeps the string periodic. */
  lemma PeriodicPrefix(sep: string, rest: string)
    requires |sep| > 0 ==> forall i :: 0 <= i < |rest| ==> rest[i] == sep[i % |sep|]
    ensures |sep| > 0 ==> forall i :: 0 <= i < |sep + rest| ==> (sep + rest)[i] == sep[i % |sep|]
  {
    if |sep| > 0 {
      forall i | 0 <= i < |sep + rest|
        ensures (sep + rest)[i] == sep[i % |sep|]
      {
        if i >= |sep| {
          assert (sep + rest)[i] == rest[i - |sep|];
          ShiftMod(i, |sep|);
        }
      }
    }
  }

  lemma ShiftMod(i: int, m: int)
    requires 0 < m <= i
    ensures (i - m) % m == i % m
  {
    var q, r := (i - m) / m, (i - m) % m;
    assert i - m == q * m + r;
    assert i == (q + 1) * m + r;
    ModUnique(i, m, q + 1, r);
  }

  lemma ModUnique(i: int, m: int, q: int, r: int)
    requires 0 < m && 0 <= r < m && i == q * m + r
    ensures i % m == r
  {
    var q2, r2 := i / m, i % m;
    assert (q - q2) * m == r2 - r;
    if q > q2 {
      MulAtLeast(q - q2, m);
    } else if q < q2 {
      MulAtLeast(q2 - q, m);
    }
  }

  lemma MulAtLeast(d: int, m: int)
    requires d >= 1 && m > 0
    ensures d * m >= m
  {
  }

  /** `new Array(10).join('Y')` is nine Y's. */
  lemma NineYs()
    ensures EmptyArrayJoin(10, "Y") == "YYYYYYYYY"
  {
    assert EmptyArrayJoin(2, "Y") == "Y";
    assert EmptyArrayJoin(4, "Y") == "YYY";
    assert EmptyArrayJoin(6, "Y") == "YYYYY";
    assert EmptyArrayJoin(8, "Y") == "YYYYYYY";
  }

  /** The status request `libraryStatus` sends: code 99, status 0, print
      width `xxx`, protocol version 2.00. It has no fields. */
  const LibraryStatus: string := "990xxx2.00"

  // Field tables: the header and the fields, in wire order, of each request.

  function PatronStatusMessage(cfg: Config, now: Date, patronId: string, patronPassword: string): Message {
    Message("23009" + EncodeTime(now),
      [Field("AO", cfg.agency), Field("AA", patronId), Field("AC", ""), Field("AD", patronPassword)])
  }

  function PatronInformationMessage(cfg: Config, now: Date, patronId: string, patronPassword: string): Message {
    Message("63009" + EncodeTime(now) + "YYYYYYYYY",
      [Field("AO", cfg.agency), Field("AA", patronId), Field("AC", ""), Field("AD", patronPassword)])
  }

  function CheckoutMessage(cfg: Config, now: Date, patronId: string, patronPassword: string, itemIdentifier: string): Message {
    Message("11NN" + EncodeTime(now) + EncodeTime(now),
      [Field("AO", cfg.agency), Field("AA", patronId), Field("AB", itemIdentifier),
       Field("AC", ""), Field("CH", ""), Field("AD", patronPassword)])
  }

  function CheckInMessage(cfg: Config, now: Date, itemIdentifier: string): Message {
    Message("09N" + EncodeTime(now) + EncodeTime(now),
      [Field("AP", cfg.location), Field("AO", cfg.agency), Field("AB", itemIdentifier),
       Field("AC", ""), Field("CH", "")])
  }

  function RenewMessage(cfg: Config, now: Date, patronId: string, patronPassword: string, itemIdentifier: string): Message {
    Message("29NN" + EncodeTime(now) + EncodeTime(now),
      [Field("AO", cfg.agency), Field("AA", patronId), Field("AD", patronPassword), Field("AB", itemIdentifier)])
  }

  function RenewAllMessage(cfg: Config, now: Date, patronId: string, patronPassword: string): Message {
    Message("65" + EncodeTime(now),
      [Field("AO", cfg.agency), Field("AA", patronId), Field("AD", patronPassword)])
  }

  /** The builders validate nothing: a value holding the delimiter is sent
      as is, and only then does the line stop reading back field by field. */
  predicate Clean(s: string) {
    '|' !in s
  }

  // The builders, with each line concatenated as request.js writes it.

  function PatronStatus(cfg: Config, now: Date, patronId: string, patronPassword: string): (r: string)
    ensures r == Encode(PatronStatusMessage(cfg, now, patronId, patronPassword))
  {
    var transactionDate := EncodeTime(now);
    PatronLine("23009" + transactionDate, cfg.agency, patronId, patronPassword);
    "23009" + transactionDate + "|AO" + cfg.agency + "|AA" + patronId + "|AC|AD" + patronPassword + "|"
  }

  function PatronInformation(cfg: Config, now: Date, patronId: string, patronPassword: string): (r: string)
    ensures r == Encode(PatronInformationMessage(cfg, now, patronId, patronPassword))
  {
    var transactionDate := EncodeTime(now);
    NineYs();
    PatronLine("63009" + transactionDate + EmptyArrayJoin(10, "Y"), cfg.agency, patronId, patronPassword);
    "63009" + transactionDate + EmptyArrayJoin(10, "Y") + "|AO" + cfg.agency + "|AA" + patronId + "|AC|AD" + patronPassword + "|"
  }

  /** The four patron fields both patron requests append to their header. */
  lemma PatronLine(header: string, agency: string, patronId: string, patronPassword: string)
    ensures header + "|AO" + agency + "|AA" + patronId + "|AC|AD" + patronPassword + "|"
         == Encode(Message(header, [Field("AO", agency), Field("AA", patronId), Field("AC", ""), Field("AD", patronPassword)]))
  {
    FieldsText4(Field("AO", agency), Field("AA", patronId), Field("AC", ""), Field("AD", patronPassword));
  }

  function Checkout(cfg: Config, now: Date, patronId: string, patronPassword: string, itemIdentifier: string): (r: string)
    ensures r == Encode(CheckoutMessage(cfg, now, patronId, patronPassword, itemIdentifier))
  {
    var transactionDate := EncodeTime(now);
    FieldsText6(Field("AO", cfg.agency), Field("AA", patronId), Field("AB", itemIdentifier),
      Field("AC", ""), Field("CH", ""), Field("AD", patronPassword));
    "11NN" + transactionDate + transactionDate + "|AO" + cfg.agency + "|AA" + patronId + "|AB" + itemIdentifier
      + "|AC|CH|AD" + patronPassword + "|"
  }

  function CheckIn(cfg: Config, now: Date, itemIdentifier: string): (r: string)
    ensures r == Encode(CheckInMessage(cfg, now, itemIdentifier))
  {
    var transactionDate := EncodeTime(now);
    FieldsText5(Field("AP", cfg.location), Field("AO", cfg.agency), Field("AB", itemIdentifier),
      Field("AC", ""), Field("CH", ""));
    "09N" + transactionDate + transactionDate + "|AP" + cfg.location + "|AO" + cfg.agency + "|AB" + itemIdentifier + "|AC|CH|"
  }

  function Renew(cfg: Config, now: Date, patronId: string, patronPassword: string, itemIdentifier: string): (r: string)
    ensures r == Encode(RenewMessage(cfg, now, patronId, patronPassword, itemIdentifier))
  {
    var transactionDate := EncodeTime(now);
    FieldsText4(Field("AO", cfg.agency), Field("AA", patronId), Field("AD", patronPassword), Field("AB", itemIdentifier));
    "29NN" + transactionDate + transactionDate + "|AO" + cfg.agency + "|AA" + patronId + "|AD" + patronPassword
      + "|AB" + itemIdentifier + "|"
  }

  function RenewAll(cfg: Config, now: Date, patronId: string, patronPassword: string): (r: string)
    ensures r == Encode(RenewAllMessage(cfg, now, patronId, patronPassword))
  {
    var transactionDate := EncodeTime(now);
    FieldsText3(Field("AO", cfg.agency), Field("AA", patronId), Field("AD", patronPassword));
    "65" + transactionDate + "|AO" + cfg.agency + "|AA" + patronId + "|AD" + patronPassword + "|"
  }

  lemma HeaderHasNoPipe(prefix: string, now: Date, suffix: string)
    requires '|' !in prefix && '|' !in suffix
    ensures '|' !in prefix + EncodeTime(now) + suffix
    ensures '|' !in prefix + EncodeTime(now) + EncodeTime(now)
  {
    TimeHasNoPipe(now);
    NoPipeAppend(prefix, EncodeTime(now));
    NoPipeAppend(prefix + EncodeTime(now), suffix);
    NoPipeAppend(prefix + EncodeTime(now), EncodeTime(now));
  }

  /** With no delimiter inside the configured codes or the arguments, every
      request line reads back, field by field and in order, as its table:
      empty placeholders included, nothing dropped or reordered. */
  lemma RequestsReadBack(cfg: Config, now: Date, patronId: string, patronPassword: string, itemIdentifier: string)
    requires Clean(cfg.agency) && Clean(cfg.location)
    requires Clean(patronId) && Clean(patronPassword) && Clean(itemIdentifier)
    ensures Decode(PatronStatus(cfg, now, patronId, patronPassword))
      == Some(PatronStatusMessage(cfg, now, patronId, patronPassword))
    ensures Decode(PatronInformation(cfg, now, patronId, patronPassword))
      == Some(PatronInformationMessage(cfg, now, patronId, patronPassword))
    ensures Decode(Checkout(cfg, now, patronId, patronPassword, itemIdentifier))
      == Some(CheckoutMessage(cfg, now, patronId, patronPassword, itemIdentifier))
    ensures Decode(CheckIn(cfg, now, itemIdentifier)) == Some(CheckInMessage(cfg, now, itemIdentifier))
    ensures Decode(Renew(cfg, now, patronId, patronPassword, itemIdentifier))
      == Some(RenewMessage(cfg, now, patronId, patronPassword, itemIdentifier))
    ensures Decode(RenewAll(cfg, now, patronId, patronPassword))
      == Some(RenewAllMessage(cfg, now, patronId, patronPassword))
  {
    PatronStatusReadBack(cfg, now, patronId, patronPassword);
    PatronInformationReadBack(cfg, now, patronId, patronPassword);
    CheckoutReadBack(cfg, now, patronId, patronPassword, itemIdentifier);
    CheckInReadBack(cfg, now, itemIdentifier);
    RenewReadBack(cfg, now, patronId, patronPassword, itemIdentifier);
    RenewAllReadBack(cfg, now, patronId, patronPassword);
  }

  lemma PatronStatusReadBack(cfg: Config, now: Date, patronId: string, patronPassword: string)
    requires Clean(cfg.agency) && Clean(patronId) && Clean(patronPassword)
    ensures Decode(PatronStatus(cfg, now, patronId, patronPassword))
      == Some(PatronStatusMessage(cfg, now, patronId, patronPassword))
  {
    HeaderHasNoPipe("23009", now, "");
    FrameRoundTrip(PatronStatusMessage(cfg, now, patronId, patronPassword));
  }

  lemma PatronInformationReadBack(cfg: Config, now: Date, patronId: string, patronPassword: string)
    requires Clean(cfg.agency) && Clean(patronId) && Clean(patronPassword)
    ensures Decode(PatronInformation(cfg, now, patronId, patronPassword))
      == Some(PatronInformationMessage(cfg, now, patronId, patronPassword))
  {
    HeaderHasNoPipe("63009", now, "YYYYYYYYY");
    FrameRoundTrip(PatronInformationMessage(cfg, now, patronId, patronPassword));
  }

  lemma RenewAllReadBack(cfg: Config, now: Date, patronId: string, patronPassword: string)
    requires Clean(cfg.agency) && Clean(patronId) && Clean(patronPassword)
    ensures Decode(RenewAll(cfg, now, patronId, patronPassword))
      == Some(RenewAllMessage(cfg, now, patronId, patronPassword))
  {
    HeaderHasNoPipe("65", now, "");
    FrameRoundTrip(RenewAllMessage(cfg, now, patronId, patronPassword));
  }

  lemma CheckoutReadBack(cfg: Config, now: Date, patronId: string, patronPassword: string, itemIdentifier: string)
    requires Clean(cfg.agency) && Clean(patronId) && Clean(patronPassword) && Clean(itemIdentifier)
    ensures Decode(Checkout(cfg, now, patronId, patronPassword, itemIdentifier))
      == Some(CheckoutMessage(cfg, now, patronId, patronPassword, itemIdentifier))
  {
    HeaderHasNoPipe("11NN", now, "");
    FrameRoundTrip(CheckoutMessage(cfg, now, patronId, patronPassword, itemIdentifier));
  }

  lemma CheckInReadBack(cfg: Config, now: Date, itemIdentifier: string)
    requires Clean(cfg.agency) && Clean(cfg.location) && Clean(itemIdentifier)
    ensures Decode(CheckIn(cfg, now, itemIdentifier)) == Some(CheckInMessage(cfg, now, itemIdentifier))
  {
    HeaderHasNoPipe("09N", now, "");
    FrameRoundTrip(CheckInMessage(cfg, now, itemIdentifier));
  }

  lemma RenewReadBack(cfg: Config, now: Date, patronId: string, patronPassword: string, itemIdentifier: string)
    requires Clean(cfg.agency) && Clean(patronId) && Clean(patronPassword) && Clean(itemIdentifier)
    ensures Decode(Renew(cfg, now, patronId, patronPassword, itemIdentifier))
      == Some(RenewMessage(cfg, now, patronId, patronPassword, itemIdentifier))
  {
    HeaderHasNoPipe("29NN", now, "");
    FrameRoundTrip(RenewMessage(cfg, now, patronId, patronPassword, itemIdentifier));
  }

  // Sending.

  /** What response.js would build from a reply body; it is not part of this
      model, so its queries are plain fields. `validPatron` and
      `validPatronPassword` are None when the reply lacks them. */
  datatype Response = Response(hasError: bool, error: string, validPatron: Option<string>, validPatronPassword: Option<string>)

  /** What the HTTP transport hands to its completion function. */
  datatype HttpReply = TransportError(error: Error) | HttpResponse(statusCode: int, body: string)

  /** The probe request emitted before every send. */
  datatype Probe = Probe(url: string, busEvent: string)

  /** The POST the transport performs: the request line (wrapped in the XML
      envelope, which is not modelled) to the configured endpoint. */
  datatype Post = Post(url: string, message: string)

  /** How the caller's `(err, res)` callback ends up being invoked, or the
      exception that escapes instead of it. */
  datatype Completion = Callback(err: Option<Error>, res: Option<Response>) | Thrown(exception: Error)

  /** Everything one `send` does that is visible outside it. */
  datatype Exchange = Exchange(probe: Probe, posted: Option<Post>, completion: Completion)

  const OfflineError: Error := Error("FBS is offline")
  const UnknownError: Error := Error("Unknown error")
  /** What calling the number `response.statusCode` as a function throws. */
  const StatusCodeTypeError: Error := Error("TypeError: response.statusCode is not a function")

  /** The node callback convention `send` keeps: at least one argument is
      non-null; a non-null response with a non-null error is the remote error
      that response reports. */
  predicate CallbackConvention(c: Completion) {
    && c.Callback?
    && (c.err.Some? || c.res.Some?)
    && (c.res.Some? ==> (c.err.Some? <==> c.res.value.hasError))
    && (c.res.Some? && c.err.Some? ==> c.err.value == Error(c.res.value.error))
  }

  /** The reply reached the parser with HTTP status 200. */
  predicate Delivered(online: bool, reply: HttpReply) {
    online && reply.HttpResponse? && reply.statusCode == 200
  }

  /** `send`, with the `response.statusCode()` call on a non-200 reply that
      reports no error replaced by the intended generic error. */
  function Send(cfg: Config, message: string, firstVar: string, online: bool, reply: HttpReply,
                parse: (string, string) -> Response): (r: Exchange)
    ensures r.probe == Probe(cfg.endpoint, "fbs.sip2.online")
    ensures r.posted == if online then Some(Post(cfg.endpoint, message)) else None
    ensures CallbackConvention(r.completion)
    ensures r.completion.res.Some? <==> Delivered(online, reply)
    ensures Delivered(online, reply) ==> r.completion.res == Some(parse(reply.body, firstVar))
    ensures !online ==> r.completion == Callback(Some(OfflineError), None)
    ensures online && reply.TransportError? ==> r.completion == Callback(Some(reply.error), None)
    ensures online && reply.HttpResponse? && reply.statusCode != 200 ==>
      var res := parse(reply.body, firstVar);
      r.completion == Callback(Some(if res.hasError then Error(res.error) else UnknownError), None)
  {
    var probe := Probe(cfg.endpoint, "fbs.sip2.online");
    if online then
      var post := Some(Post(cfg.endpoint, message));
      match reply
      case TransportError(error) =>
        Exchange(probe, post, Callback(Some(error), None))
      case HttpResponse(statusCode, body) =>
        var res := parse(body, firstVar);
        if statusCode != 200 then
          var error := if res.hasError then Error(res.error) else UnknownError;
          Exchange(probe, post, Callback(Some(error), None))
        else
          var err := if res.hasError then Some(Error(res.error)) else None;
          Exchange(probe, post, Callback(err, Some(res)))
    else
      Exchange(probe, None, Callback(Some(OfflineError), None))
  }

  /** `send` as written: on a non-200 reply whose parse reports no error it
      calls `response.statusCode()`, but `statusCode` is a number, so a
      TypeError escapes and the callback never runs. */
  function SendAsWritten(cfg: Config, message: string, firstVar: string, online: bool, reply: HttpReply,
                         parse: (string, string) -> Response): (r: Exchange)
    ensures r.probe == Probe(cfg.endpoint, "fbs.sip2.online")
    ensures r.posted == if online then Some(Post(cfg.endpoint, message)) else None
    ensures r.completion.Thrown? <==>
      online && reply.HttpResponse? && reply.statusCode != 200 && !parse(reply.body, firstVar).hasError
    ensures !r.completion.Thrown? ==> r == Send(cfg, message, firstVar, online, reply, parse)
  {
    var probe := Probe(cfg.endpoint, "fbs.sip2.online");
    if online then
      var post := Some(Post(cfg.endpoint, message));
      match reply
      case TransportError(error) =>
        Exchange(probe, post, Callback(Some(error), None))
      case HttpResponse(statusCode, body) =>
        var res := parse(body, firstVar);
        if statusCode != 200 then
          if res.hasError then Exchange(probe, post, Callback(Some(Error(res.error)), None))
          else Exchange(probe, post, Thrown(StatusCodeTypeError))
        else
          var err := if res.hasError then Some(Error(res.error)) else None;
          Exchange(probe, post, Callback(err, Some(res)))
    else
      Exchange(probe, None, Callback(Some(OfflineError), None))
  }

  /** A concrete exchange on which the two differ: a 500 reply whose body
      reports no error leaves the caller without any callback. */
  lemma StatusCodeCallThrows(cfg: Config, message: string)
    ensures var parse := (body: string, firstVar: string) => Response(false, "", None, None);
      && SendAsWritten(cfg, message, "AO", true, HttpResponse(500, ""), parse).completion.Thrown?
      && Send(cfg, message, "AO", true, HttpResponse(500, ""), parse).completion == Callback(Some(UnknownError), None)
  {
  }

  /** The seven requests the request object can make, with their
      arguments. */
  datatype Operation =
    | LibraryStatusOp
    | PatronStatusOp(patronId: string, patronPassword: string)
    | PatronInformationOp(patronId: string, patronPassword: string)
    | CheckoutOp(patronId: string, patronPassword: string, itemIdentifier: string)
    | CheckInOp(itemIdentifier: string)
    | RenewOp(patronId: string, patronPassword: string, itemIdentifier: string)
    | RenewAllOp(patronId: string, patronPassword: string)

  /** The request line of an operation, timestamped `now`. */
  function Line(cfg: Config, now: Date, op: Operation): string {
    match op
    case LibraryStatusOp => LibraryStatus
    case PatronStatusOp(id, pw) => PatronStatus(cfg, now, id, pw)
    case PatronInformationOp(id, pw) => PatronInformation(cfg, now, id, pw)
    case CheckoutOp(id, pw, item) => Checkout(cfg, now, id, pw, item)
    case CheckInOp(item) => CheckIn(cfg, now, item)
    case RenewOp(id, pw, item) => Renew(cfg, now, id, pw, item)
    case RenewAllOp(id, pw) => RenewAll(cfg, now, id, pw)
  }

  /** Every operation hands its line to `send` and asks for the reply to be
      parsed from the institution field `AO` on. */
  function Submit(cfg: Config, now: Date, op: Operation, online: bool, reply: HttpReply,
                  parse: (string, string) -> Response): (r: Exchange)
    ensures r.posted == if online then Some(Post(cfg.endpoint, Line(cfg, now, op))) else None
    ensures CallbackConvention(r.completion)
    ensures r.completion.res.Some? <==> Delivered(online, reply)
    ensures Delivered(online, reply) ==> r.completion.res == Some(parse(reply.body, "AO"))
  {
    Send(cfg, Line(cfg, now, op), "AO", online, reply, parse)
  }

  /** The status line is the fixed ten-character SC status request: code
      99, status 0, width `xxx`, version 2.00, and no fields. */
  lemma LibraryStatusLine(cfg: Config, now: Date)
    ensures var r := Line(cfg, now, LibraryStatusOp);
      |r| == 10 && r[..2] == "99" && r[2] == '0' && r[3..6] == "xxx" && r[6..] == "2.00" && '|' !in r
  {
  }
}

=== FILE: sip2_time.dfy ===
/** The SIP2 date-and-time field: `YYYYMMDD    HHMMSS`, local time, with
    four spaces where the protocol puts the time-zone indicator. */
module Sip2Time {
  import opened Wrappers
  import opened Decimal

  /** A local calendar reading. `month` is 1..12, i.e. JavaScript's
      `getMonth() + 1`; the clock that produces it is not modelled. */
  datatype Date = Date(year: nat, month: nat, day: nat, hour: nat, minute: nat, second: nat)

  predicate ValidDate(d: Date) {
    && 1 <= d.month <= 12
    && 1 <= d.day <= 31
    && d.hour < 24
    && d.minute < 60
    && d.second < 60
  }

  predicate FourDigitYear(d: Date) {
    1000 <= d.year <= 9999
  }

  /** `('0' + n).slice(-2)`: the last two characters of n's text behind a
      '0', i.e. the tens and units digits of n -- a leading '0' for n < 10,
      the whole text for 10..99 and only the last two digits beyond. */
  function ZeroPad(n: nat): (r: string)
    ensures r == [DigitChar(n / 10 % 10), DigitChar(n % 10)]
  {
    var s := "0" + NatToString(n);
    assert n >= 10 ==> NatToString(n) == NatToString(n / 10) + [DigitChar(n % 10)];
    s[|s| - 2..]
  }

  /** The three cases of ZeroPad in terms of n's own text: one digit gets
      a leading '0', two digits stay as they are, longer numbers keep only
      their last two digits. */
  lemma ZeroPadCases(n: nat)
    ensures n < 10 ==> ZeroPad(n) == "0" + NatToString(n)
    ensures 10 <= n < 100 ==> ZeroPad(n) == NatToString(n)
    ensures n >= 100 ==> ZeroPad(n) == ZeroPad(n % 100)
  {
    if n < 10 {
      ZeroPadOneDigit(n);
    } else if n < 100 {
      ZeroPadTwoDigits(n);
    } else {
      LastDigitsOfRemainder(n);
    }
  }

  lemma ZeroPadOneDigit(n: nat)
    requires n < 10
    ensures ZeroPad(n) == "0" + NatToString(n)
  {
    assert n / 10 % 10 == 0;
    assert "0" == [DigitChar(0)];
  }

  lemma ZeroPadTwoDigits(n: nat)
    requires 10 <= n < 100
    ensures ZeroPad(n) == NatToString(n)
  {
    var t := n / 10;
    assert t < 10 && t % 10 == t;
    assert NatToString(n) == NatToString(t) + [DigitChar(n % 10)];
  }

  lemma LastDigitsOfRemainder(n: nat)
    ensures n % 100 / 10 % 10 == n / 10 % 10 && n % 100 % 10 == n % 10
  {
  }

  const Separator: string := "    "

  /** `encodeTime`: year text, month, day, four spaces, hour, minute, second. */
  function EncodeTime(d: Date): (r: string)
    ensures |r| == |NatToString(d.year)| + 14
    ensures FourDigitYear(d) ==> |r| == 18 && r[8..12] == Separator
  {
    FourDigits(d.year);
    NatToString(d.year) + ZeroPad(d.month) + ZeroPad(d.day) + Separator
      + ZeroPad(d.hour) + ZeroPad(d.minute) + ZeroPad(d.second)
  }

  lemma NoPipeAppend(a: string, b: string)
    requires '|' !in a && '|' !in b
    ensures '|' !in a + b
  {
  }

  lemma DigitsHaveNoPipe(s: string)
    requires IsDigits(s)
    ensures '|' !in s
  {
  }

  lemma ZeroPadHasNoPipe(n: nat)
    ensures '|' !in ZeroPad(n)
  {
    var r := ZeroPad(n);
    assert r[0] != '|' && r[1] != '|';
  }

  /** The timestamp is made of digits and spaces only: it never contains the
      SIP2 field delimiter. */
  lemma TimeHasNoPipe(d: Date)
    ensures '|' !in EncodeTime(d)
  {
    var y := NatToString(d.year);
    var mo, da, h, mi, se := ZeroPad(d.month), ZeroPad(d.day), ZeroPad(d.hour), ZeroPad(d.minute), ZeroPad(d.second);
    DigitsHaveNoPipe(y);
    ZeroPadHasNoPipe(d.month);
    ZeroPadHasNoPipe(d.day);
    ZeroPadHasNoPipe(d.hour);
    ZeroPadHasNoPipe(d.minute);
    ZeroPadHasNoPipe(d.second);
    var s1 := y + mo;
    NoPipeAppend(y, mo);
    var s2 := s1 + da;
    NoPipeAppend(s1, da);
    var s3 := s2 + Separator;
    NoPipeAppend(s2, Separator);
    var s4 := s3 + h;
    NoPipeAppend(s3, h);
    var s5 := s4 + mi;
    NoPipeAppend(s4, mi);
    NoPipeAppend(s5, se);
    assert EncodeTime(d) == s5 + se;
  }

  /** The four digits of a four-digit year. */
  lemma YearDigits(n: nat)
    requires 1000 <= n <= 9999
    ensures NatToString(n) == [DigitChar(n / 1000), DigitChar(n / 100 % 10), DigitChar(n / 10 % 10), DigitChar(n % 10)]
  {
    var a, b, c := n / 10, n / 100, n / 1000;
    assert a / 10 == b && b / 10 == c && a % 10 == n / 10 % 10 && b % 10 == n / 100 % 10;
    assert NatToString(b) == NatToString(c) + [DigitChar(b % 10)];
    assert NatToString(a) == NatToString(b) + [DigitChar(a % 10)];
    assert NatToString(n) == NatToString(a) + [DigitChar(n % 10)];
  }

  /** The eighteen characters of the timestamp of a date with a four-digit
      year: fourteen digits around the four-space separator. */
  function TimeChars(d: Date): string
    requires FourDigitYear(d)
  {
    [ DigitChar(d.year / 1000), DigitChar(d.year / 100 % 10), DigitChar(d.year / 10 % 10), DigitChar(d.year % 10),
      DigitChar(d.month / 10 % 10), DigitChar(d.month % 10), DigitChar(d.day / 10 % 10), DigitChar(d.day % 10),
      ' ', ' ', ' ', ' ',
      DigitChar(d.hour / 10 % 10), DigitChar(d.hour % 10), DigitChar(d.minute / 10 % 10), DigitChar(d.minute % 10),
      DigitChar(d.second / 10 % 10), DigitChar(d.second % 10)]
  }

  lemma EncodeTimeChars(d: Date)
    requires FourDigitYear(d)
    ensures EncodeTime(d) == TimeChars(d)
  {
    YearDigits(d.year);
  }

  /** The value of the two digit characters at s[i], s[i + 1]. */
  function Pair(s: string, i: nat): nat
    requires i + 1 < |s| && IsDigit(s[i]) && IsDigit(s[i + 1])
  {
    DigitValue(s[i]) * 10 + DigitValue(s[i + 1])
  }

  /** Positions 0..7 and 12..17 hold digits, 8..11 spaces. */
  predicate TimestampShape(s: string) {
    && |s| == 18
    && (forall i :: 0 <= i < 8 ==> IsDigit(s[i]))
    && s[8] == ' ' && s[9] == ' ' && s[10] == ' ' && s[11] == ' '
    && (forall i :: 12 <= i < 18 ==> IsDigit(s[i]))
  }

  /** Reads an 18-character SIP2 timestamp back into a valid date with a
      four-digit year; anything else is rejected. */
  function DecodeTime(s: string): (r: Option<Date>)
    ensures r.Some? ==> ValidDate(r.value) && FourDigitYear(r.value)
  {
    if TimestampShape(s) then
      var d := Date(Pair(s, 0) * 100 + Pair(s, 2), Pair(s, 4), Pair(s, 6), Pair(s, 12), Pair(s, 14), Pair(s, 16));
      if ValidDate(d) && FourDigitYear(d) then Some(d) else None
    else
      None
  }

  lemma TwoDigitValue(a: nat, b: nat)
    requires a < 10 && b < 10
    ensures (a * 10 + b) / 10 % 10 == a && (a * 10 + b) % 10 == b
  {
  }

  lemma FourDigitValue(a: nat, b: nat, c: nat, e: nat)
    requires a < 10 && b < 10 && c < 10 && e < 10
    ensures var n := (a * 10 + b) * 100 + c * 10 + e;
      n / 1000 == a && n / 100 % 10 == b && n / 10 % 10 == c && n % 10 == e
  {
    var n := (a * 10 + b) * 100 + c * 10 + e;
    assert n == a * 1000 + (b * 100 + c * 10 + e) && b * 100 + c * 10 + e < 1000;
    assert n == (a * 10 + b) * 100 + (c * 10 + e) && c * 10 + e < 100;
    assert n == ((a * 10 + b) * 10 + c) * 10 + e;
    assert n / 100 == a * 10 + b;
    assert n / 10 == (a * 10 + b) * 10 + c;
  }

  lemma SplitTwo(n: nat)
    requires n < 100
    ensures n / 10 % 10 * 10 + n % 10 == n
  {
  }

  lemma DigitRoundTrip(x: nat)
    requires x < 10
    ensures DigitValue(DigitChar(x)) == x
  {
  }

  /** The two digits ZeroPad writes for n < 100 read back as n. */
  lemma PairOfZeroPad(s: string, i: nat, n: nat)
    requires n < 100 && i + 1 < |s| && s[i] == DigitChar(n / 10 % 10) && s[i + 1] == DigitChar(n % 10)
    ensures Pair(s, i) == n
  {
    DigitRoundTrip(n / 10 % 10);
    DigitRoundTrip(n % 10);
    SplitTwo(n);
  }

  lemma YearSplit(y: nat)
    requires y <= 9999
    ensures y / 100 / 10 % 10 == y / 1000
    ensures y % 100 / 10 % 10 == y / 10 % 10 && y % 100 % 10 == y % 10
    ensures y / 100 < 100 && y / 100 * 100 + y % 100 == y
  {
    var q, r := y / 100, y % 100;
    assert y == q * 100 + r && r < 100 && q < 100;
    YearHigh(q, r);
    YearLow(q, r);
  }

  lemma YearHigh(q: nat, r: nat)
    requires q < 100 && r < 100
    ensures (q * 100 + r) / 1000 == q / 10 % 10
  {
    var a, b := q / 10, q % 10;
    assert q * 100 + r == a * 1000 + (b * 100 + r);
    assert b * 100 + r < 1000;
  }

  lemma YearLow(q: nat, r: nat)
    requires r < 100
    ensures (q * 100 + r) / 10 % 10 == r / 10 % 10 && (q * 100 + r) % 10 == r % 10
  {
    var t, u := r / 10, r % 10;
    assert q * 100 + r == (q * 10 + t) * 10 + u;
    assert (q * 100 + r) / 10 == q * 10 + t;
  }

  lemma TimeCharsShape(d: Date)
    requires FourDigitYear(d)
    ensures TimestampShape(TimeChars(d))
  {
  }

  lemma TimeCharsPairs(d: Date)
    requires ValidDate(d) && FourDigitYear(d)
    ensures var s := TimeChars(d);
      && TimestampShape(s)
      && Pair(s, 0) * 100 + Pair(s, 2) == d.year
      && Pair(s, 4) == d.month && Pair(s, 6) == d.day
      && Pair(s, 12) == d.hour && Pair(s, 14) == d.minute && Pair(s, 16) == d.second
  {
    var s := TimeChars(d);
    var y := d.year;
    TimeCharsShape(d);
    YearSplit(y);
    PairOfZeroPad(s, 0, y / 100);
    PairOfZeroPad(s, 2, y % 100);
    PairOfZeroPad(s, 4, d.month);
    PairOfZeroPad(s, 6, d.day);
    PairOfZeroPad(s, 12, d.hour);
    PairOfZeroPad(s, 14, d.minute);
    PairOfZeroPad(s, 16, d.second);
  }

  lemma DecodeTimeChars(d: Date)
    requires ValidDate(d) && FourDigitYear(d)
    ensures DecodeTime(TimeChars(d)) == Some(d)
  {
    TimeCharsShape(d);
    TimeCharsPairs(d);
  }

  /** Decoding the encoding of a valid date with a four-digit year gives the
      date back, so such dates have pairwise distinct encodings. */
  lemma TimeRoundTrip(d: Date)
    requires ValidDate(d) && FourDigitYear(d)
    ensures DecodeTime(EncodeTime(d)) == Some(d)
  {
    EncodeTimeChars(d);
    DecodeTimeChars(d);
  }

  lemma CharsOfDecoded(s: string)
    requires DecodeTime(s).Some?
    ensures TimeChars(DecodeTime(s).value) == s
  {
    var d := DecodeTime(s).value;
    FourDigitValue(DigitValue(s[0]), DigitValue(s[1]), DigitValue(s[2]), DigitValue(s[3]));
    TwoDigitValue(DigitValue(s[4]), DigitValue(s[5]));
    TwoDigitValue(DigitValue(s[6]), DigitValue(s[7]));
    TwoDigitValue(DigitValue(s[12]), DigitValue(s[13]));
    TwoDigitValue(DigitValue(s[14]), DigitValue(s[15]));
    TwoDigitValue(DigitValue(s[16]), DigitValue(s[17]));
    var e := TimeChars(d);
    assert forall i :: 0 <= i < 18 ==> e[i] == s[i];
  }

  /** Every string DecodeTime accepts is exactly the encoding of what it
      returns: the SIP2 timestamp format has a single spelling per instant. */
  lemma TimeDecodeCanonical(s: string)
    requires DecodeTime(s).Some?
    ensures EncodeTime(DecodeTime(s).value) == s
  {
    EncodeTimeChars(DecodeTime(s).value);
    CharsOfDecoded(s);
  }
}

=== FILE: user_service.dfy ===
/** The browser's user service: it keeps the credentials of the patron at
    the kiosk and whether the FBS accepted them, and sends login, checkout
    and patron requests over the bus with those credentials. The proxy
    service's promise for each request is a parameter: `reply` is how it
    settles. */
module UserService {
  import opened Wrappers
  import opened Bus

  datatype Session = Session(username: Option<string>, password: Option<string>, loggedIn: bool)

  /** Nobody at the kiosk. */
  const Initial: Session := Session(None, None, false)

  /** The state after an operation, the request it emitted and the promise
      it returned. */
  datatype Step<+T> = Step(state: Session, call: Call, promise: Promise<T>)

  /** `fbs.<op>.success` followed by the request's unique id. */
  function SuccessChannel(op: string, uniqueId: string): string {
    "fbs." + op + ".success" + uniqueId
  }

  function UserLoggedIn(s: Session): (r: bool)
  {
    s.loggedIn
  }

  /** `login`: the credentials are stored before the request goes out,
      whatever its outcome; only a resolved reply changes `loggedIn`, to the
      value it resolves with, and the promise settles like the reply. Here
      the reply is applied straight after the call; `LoginReply` is the
      success handler on its own, for replies that arrive later. */
  function Login(s: Session, user: string, pass: string, uniqueId: string, reply: Promise<bool>): (r: Step<bool>)
    ensures r.state.username == Some(user) && r.state.password == Some(pass)
    ensures r.state.loggedIn == if reply.Resolved? then reply.value else s.loggedIn
    ensures r.promise == reply
    ensures Correlated(r.call) && r.call.successChannel == SuccessChannel("login", uniqueId)
    ensures r.call.event == "fbs.login" && r.call.errorChannel == "fbs.login.error"
    ensures r.call.data.username == Some(user) && r.call.data.password == Some(pass)
    ensures r.call.data.itemIdentifier == None
  {
    var s1 := s.(username := Some(user), password := Some(pass));
    var call := Call("fbs.login", "fbs.login.success" + uniqueId, "fbs.login.error",
                     Data(s1.username, s1.password, "fbs.login.success" + uniqueId, None));
    Step(LoginReply(s1, reply), call, reply)
  }

  /** The handlers `login` attaches to the proxy's promise: a resolved reply
      sets `loggedIn` to its value, whatever state the session is in by
      then; a rejected or missing reply leaves the session alone. */
  function LoginReply(s: Session, reply: Promise<bool>): (r: Session)
    ensures r.username == s.username && r.password == s.password
    ensures r.loggedIn == if reply.Resolved? then reply.value else s.loggedIn
  {
    match reply
    case Resolved(loggedInSuccess) => s.(loggedIn := loggedInSuccess)
    case _ => s
  }

  /** A login whose reply comes straight back is the call followed by its
      reply: the call alone changes only the credentials. */
  lemma LoginIsCallThenReply(s: Session, user: string, pass: string, uniqueId: string, reply: Promise<bool>)
    ensures Login(s, user, pass, uniqueId, Pending).state == s.(username := Some(user), password := Some(pass))
    ensures Login(s, user, pass, uniqueId, reply).state == LoginReply(Login(s, user, pass, uniqueId, Pending).state, reply)
  {
  }

  /** `logout` forgets the patron entirely. */
  function Logout(s: Session): (r: Session)
    ensures r == Initial && !UserLoggedIn(r)
  {
    Session(None, None, false)
  }

  /** `borrow`: a checkout request with the stored credentials; the session
      is left as it is and the reply is passed through. */
  function Borrow<T>(s: Session, itemIdentifier: string, uniqueId: string, reply: Promise<T>): (r: Step<T>)
    ensures r.state == s && r.promise == reply
    ensures Correlated(r.call) && r.call.successChannel == SuccessChannel("checkout", uniqueId)
    ensures r.call.event == "fbs.checkout" && r.call.errorChannel == "fbs.error"
    ensures r.call.data.username == s.username && r.call.data.password == s.password
    ensures r.call.data.itemIdentifier == Some(itemIdentifier)
  {
    var call := Call("fbs.checkout", "fbs.checkout.success" + uniqueId, "fbs.error",
                     Data(s.username, s.password, "fbs.checkout.success" + uniqueId, Some(itemIdentifier)));
    Step(s, call, reply)
  }

  /** `patron`: a patron-information request with the stored credentials;
      the session is left as it is and the reply is passed through. */
  function Patron<T>(s: Session, uniqueId: string, reply: Promise<T>): (r: Step<T>)
    ensures r.state == s && r.promise == reply
    ensures Correlated(r.call) && r.call.successChannel == SuccessChannel("patron", uniqueId)
    ensures r.call.event == "fbs.patron" && r.call.errorChannel == "fbs.patron.error"
    ensures r.call.data.username == s.username && r.call.data.password == s.password
    ensures r.call.data.itemIdentifier == None
  {
    var call := Call("fbs.patron", "fbs.patron.success" + uniqueId, "fbs.patron.error",
                     Data(s.username, s.password, "fbs.patron.success" + uniqueId, None));
    Step(s, call, reply)
  }

  /** Replies with distinct ids travel on distinct channels. (Distinct
      ids are an assumption: the source derives them from the current
      millisecond, so two requests of one kind in the same millisecond
      share a channel.) */
  lemma ChannelsUnique(op: string, id1: string, id2: string)
    requires id1 != id2
    ensures SuccessChannel(op, id1) != SuccessChannel(op, id2)
  {
    var p := "fbs." + op + ".success";
    assert SuccessChannel(op, id1)[|p|..] == id1;
    assert SuccessChannel(op, id2)[|p|..] == id2;
  }

  // Sequences of operations.

  /** One event in the life of the service: a call, or the reply to an
      earlier login arriving. Borrow and patron replies do not touch the
      session, so they have no event of their own. */
  datatype Action =
    | DoLogin(user: string, pass: string, uniqueId: string)
    | LoginReplied(uniqueId: string, reply: Promise<bool>)
    | DoLogout
    | DoBorrow(itemIdentifier: string, uniqueId: string)
    | DoPatron(uniqueId: string)

  datatype Trace = Trace(state: Session, calls: seq<Call>)

  function Perform(s: Session, a: Action): Trace {
    match a
    case DoLogin(user, pass, id) => var st := Login(s, user, pass, id, Pending); Trace(st.state, [st.call])
    case LoginReplied(_, reply) => Trace(LoginReply(s, reply), [])
    case DoLogout => Trace(Logout(s), [])
    case DoBorrow(item, id) => var st := Borrow<bool>(s, item, id, Pending); Trace(st.state, [st.call])
    case DoPatron(id) => var st := Patron<bool>(s, id, Pending); Trace(st.state, [st.call])
  }

  /** The session after the events, in order, and every request sent. */
  function Run(s: Session, acts: seq<Action>): Trace
    decreases |acts|
  {
    if |acts| == 0 then Trace(s, [])
    else
      var t := Perform(s, acts[0]);
      var rest := Run(t.state, acts[1..]);
      Trace(rest.state, t.calls + rest.calls)
  }

  lemma {:induction false} RunSnoc(s: Session, acts: seq<Action>, a: Action)
    ensures Run(s, acts + [a]).state == Perform(Run(s, acts).state, a).state
    decreases |acts|
  {
    if |acts| > 0 {
      assert (acts + [a])[1..] == acts[1..] + [a];
      RunSnoc(Perform(s, acts[0]).state, acts[1..], a);
    } else {
      assert (acts + [a])[1..] == [];
    }
  }

  /** Every request ever sent answers on the channel its caller listens on. */
  lemma {:induction false} RunCorrelated(s: Session, acts: seq<Action>)
    ensures forall i :: 0 <= i < |Run(s, acts).calls| ==> Correlated(Run(s, acts).calls[i])
    decreases |acts|
  {
    if |acts| > 0 {
      RunCorrelated(Perform(s, acts[0]).state, acts[1..]);
    }
  }

  /** Credentials are stored and forgotten together. */
  predicate Paired(s: Session) {
    s.username.Some? <==> s.password.Some?
  }

  /** ... and nobody is logged in without credentials. */
  predicate Consistent(s: Session) {
    Paired(s) && (s.loggedIn ==> s.username.Some?)
  }

  /** Whatever order calls and replies come in, user and password are set
      or unset together. */
  lemma {:induction false} RunPaired(s: Session, acts: seq<Action>)
    requires Paired(s)
    ensures Paired(Run(s, acts).state)
    decreases |acts|
  {
    if |acts| > 0 {
      RunPaired(Perform(s, acts[0]).state, acts[1..]);
    }
  }

  /** Each login reply arrives right after the login it answers, before
      any other call. */
  predicate Prompt(acts: seq<Action>) {
    forall i :: 0 <= i < |acts| && acts[i].LoginReplied? ==>
      0 < i && acts[i - 1].DoLogin? && acts[i - 1].uniqueId == acts[i].uniqueId
  }

  /** When replies are prompt, nobody is ever logged in without
      credentials. (Without that, see `LateReplyAfterLogout`.) */
  lemma {:induction false} RunConsistent(s: Session, acts: seq<Action>)
    requires Consistent(s) && Prompt(acts)
    ensures Consistent(Run(s, acts).state)
    decreases |acts|
  {
    if |acts| > 0 {
      var init, a := acts[..|acts| - 1], acts[|acts| - 1];
      assert acts == init + [a];
      assert forall i :: 0 <= i < |init| ==> init[i] == acts[i];
      RunConsistent(s, init);
      RunSnoc(s, init, a);
      if a.LoginReplied? {
        var k := |init| - 1;
        assert init[k].DoLogin?;
        assert init == init[..k] + [init[k]];
        RunSnoc(s, init[..k], init[k]);
      }
    }
  }

  /** Whether the patron is logged in after the events, read backwards:
      the latest logout or resolved login reply decides; otherwise the
      start. */
  function LastVerdict(acts: seq<Action>, start: bool): bool
    decreases |acts|
  {
    if |acts| == 0 then start
    else
      match acts[|acts| - 1]
      case DoLogout => false
      case LoginReplied(_, Resolved(v)) => v
      case _ => LastVerdict(acts[..|acts| - 1], start)
  }

  /** `userLoggedIn` reports the latest logout or the latest resolved login
      reply to arrive, whichever came last, whichever login it answers:
      calls, rejected replies, borrows and patron requests never change it. */
  lemma {:induction false} LoggedInIsLastVerdict(s: Session, acts: seq<Action>)
    ensures UserLoggedIn(Run(s, acts).state) == LastVerdict(acts, s.loggedIn)
    decreases |acts|
  {
    if |acts| > 0 {
      var init := acts[..|acts| - 1];
      var a := acts[|acts| - 1];
      assert acts == init + [a];
      RunSnoc(s, init, a);
      LoggedInIsLastVerdict(s, init);
    }
  }

  /** `logout` is idempotent and leaves the state the service starts in. */
  lemma LogoutIdempotent(s: Session)
    ensures Logout(Logout(s)) == Logout(s) == Initial
    ensures Consistent(Initial) && !UserLoggedIn(Initial)
  {
  }

  // Late replies, as written and corrected.

  /** A login whose reply arrives after a logout logs in a session that has
      no credentials. */
  lemma LateReplyAfterLogout()
    ensures var t := Run(Initial, [DoLogin("1234567890", "1111", "a"), DoLogout, LoginReplied("a", Resolved(true))]).state;
      t.loggedIn && t.username == None && !Consistent(t)
  {
  }

  /** Two logins in flight: the second patron is refused, then the first
      patron's acceptance arrives and logs the second patron in. */
  lemma StaleReplyLogsInWrongPatron()
    ensures var t := Run(Initial, [DoLogin("1111111111", "1111", "a"), DoLogin("2222222222", "9999", "b"),
                                   LoginReplied("b", Resolved(false)), LoginReplied("a", Resolved(true))]).state;
      t.loggedIn && t.username == Some("2222222222")
  {
  }

  /** The session with the id of the login it is waiting for, if any: a
      reply counts only when it answers that login. */
  datatype Guarded = Guarded(session: Session, current: Option<string>)

  function PerformGuarded(g: Guarded, a: Action): (r: Guarded)
    ensures a.LoginReplied? && g.current != Some(a.uniqueId) ==> r == g
    ensures !a.LoginReplied? ==> r.session == Perform(g.session, a).state
  {
    match a
    case DoLogin(_, _, id) => Guarded(Perform(g.session, a).state, Some(id))
    case LoginReplied(id, reply) =>
      if g.current == Some(id) then Guarded(LoginReply(g.session, reply), g.current) else g
    case DoLogout => Guarded(Logout(g.session), None)
    case _ => Guarded(Perform(g.session, a).state, g.current)
  }

  function RunGuarded(g: Guarded, acts: seq<Action>): Guarded
    decreases |acts|
  {
    if |acts| == 0 then g else RunGuarded(PerformGuarded(g, acts[0]), acts[1..])
  }

  /** The guarded session's invariant: consistent, and waiting only for a
      login whose credentials it holds. */
  predicate GuardedOk(g: Guarded) {
    Consistent(g.session) && (g.current.Some? ==> g.session.username.Some?)
  }

  /** With the guard, nobody is ever logged in without credentials, in
      whatever order calls and replies arrive. */
  lemma {:induction false} GuardedConsistent(g: Guarded, acts: seq<Action>)
    requires GuardedOk(g)
    ensures GuardedOk(RunGuarded(g, acts)) && Consistent(RunGuarded(g, acts).session)
    decreases |acts|
  {
    if |acts| > 0 {
      GuardedConsistent(PerformGuarded(g, acts[0]), acts[1..]);
    }
  }

  /** With prompt replies the guard never fires: the guarded session
      behaves exactly as the service does. */
  lemma {:induction false} GuardedAgreesWhenPrompt(g: Guarded, acts: seq<Action>)
    requires Prompt(acts)
    ensures RunGuarded(g, acts).session == Run(g.session, acts).state
    decreases |acts|
  {
    if |acts| > 0 {
      var init, a := acts[..|acts| - 1], acts[|acts| - 1];
      assert acts == init + [a];
      assert forall i :: 0 <= i < |init| ==> init[i] == acts[i];
      GuardedAgreesWhenPrompt(g, init);
      RunSnoc(g.session, init, a);
      RunGuardedSnoc(g, init, a);
      if a.LoginReplied? {
        var k := |init| - 1;
        assert init == init[..k] + [init[k]];
        RunGuardedSnoc(g, init[..k], init[k]);
        assert RunGuarded(g, init).current == Some(a.uniqueId);
      }
    }
  }

  lemma {:induction false} RunGuardedSnoc(g: Guarded, acts: seq<Action>, a: Action)
    ensures RunGuarded(g, acts + [a]) == PerformGuarded(RunGuarded(g, acts), a)
    decreases |acts|
  {
    if |acts| > 0 {
      assert (acts + [a])[1..] == acts[1..] + [a];
      RunGuardedSnoc(PerformGuarded(g, acts[0]), acts[1..], a);
    } else {
      assert (acts + [a])[1..] == [];
    }
  }

  /** The two traces above, guarded: the late reply is ignored and the
      refused patron stays logged out. */
  lemma GuardedIgnoresStaleReplies()
    ensures var g := RunGuarded(Guarded(Initial, None),
      [DoLogin("1234567890", "1111", "a"), DoLogout, LoginReplied("a", Resolved(true))]);
      !g.session.loggedIn && Consistent(g.session)
    ensures var g := RunGuarded(Guarded(Initial, None),
      [DoLogin("1111111111", "1111", "a"), DoLogin("2222222222", "9999", "b"),
       LoginReplied("b", Resolved(false)), LoginReplied("a", Resolved(true))]);
      !g.session.loggedIn && g.session.username == Some("2222222222")
  {
  }
}

=== FILE: wrappers.dfy ===
/** Small value types shared by the whole model: JavaScript's `null` as an
    Option, JavaScript `Error` objects, and Q / $q deferreds as promises that
    settle at most once. */
module Wrappers {

  /** A value that may be JavaScript `null`. */
  datatype Option<+T> = None | Some(value: T)

  /** The text JavaScript's `+` makes of a string that may be null. */
  function JsString(o: Option<string>): string {
    match o
    case Some(s) => s
    case None => "null"
  }

  /** A JavaScript `Error`; only its message is observable in the model. */
  datatype Error = Error(message: string)

  /** The state of a deferred (Q on the server, $q in the browser). */
  datatype Promise<+T> = Pending | Resolved(value: T) | Rejected(error: Error)

  /** `deferred.resolve(v)`: only a pending deferred changes. */
  function Resolve<T>(p: Promise<T>, v: T): Promise<T>
  {
    if p.Pending? then Resolved(v) else p
  }

  /** `deferred.reject(e)`: only a pending deferred changes. */
  function Reject<T>(p: Promise<T>, e: Error): Promise<T>
  {
    if p.Pending? then Rejected(e) else p
  }

  /** One call made on a deferred. */
  datatype Settle<+T> = DoResolve(v: T) | DoReject(e: Error)

  function Apply<T>(p: Promise<T>, a: Settle<T>): Promise<T>
  {
    match a
    case DoResolve(v) => Resolve(p, v)
    case DoReject(e) => Reject(p, e)
  }

  /** The deferred after a series of resolve/reject calls, in call order. */
  function ApplyAll<T>(p: Promise<T>, acts: seq<Settle<T>>): Promise<T>
    decreases |acts|
  {
    if |acts| == 0 then p else ApplyAll(Apply(p, acts[0]), acts[1..])
  }

  /** The outcome a single settling call gives a fresh deferred. */
  function Outcome<T>(a: Settle<T>): (p: Promise<T>)
    ensures !p.Pending?
  {
    match a
    case DoResolve(v) => Resolved(v)
    case DoReject(e) => Rejected(e)
  }

  /** A settled deferred ignores every later call. */
  lemma {:induction false} SettledIsFinal<T>(p: Promise<T>, acts: seq<Settle<T>>)
    requires !p.Pending?
    ensures ApplyAll(p, acts) == p
    decreases |acts|
  {
    if |acts| > 0 {
      SettledIsFinal(Apply(p, acts[0]), acts[1..]);
    }
  }

  /** Settle-once: a fresh deferred ends with the outcome of the FIRST call
      made on it, whatever calls follow. */
  lemma FirstCallWins<T>(acts: seq<Settle<T>>)
    requires |acts| > 0
    ensures ApplyAll(Pending, acts) == Outcome(acts[0])
  {
    SettledIsFinal(Apply(Pending, acts[0]), acts[1..]);
  }
}
